=== FILE: README.md ===
# WeddingSnapStory — a Dafny model of its core

WeddingSnapStory is a wedding web site. Couples register and log in, then keep:

- photo albums (the first photo of an album becomes its cover);
- a guest list with RSVP status;
- a wedding-day timeline;
- honeymoon plans.

Fedino, an Italian chat assistant, answers questions on every page. This project models in Dafny 4:

- the REST backend (`server/index.js`):
  - registration and login;
  - the bearer-token gate;
  - the upload middleware;
  - every create, list and update route over a document store, in module `Server` (class `Server.Store`) and module `Upload`;
- the chat assistant (`components/chatbot/fedino-chatbot.tsx`):
  - the keyword router;
  - the canned replies;
  - the message log and its unread badge;
  - these are in module `Chatbot` (class `Chatbot.Chat`);
- the countdown to the wedding day (`components/countdown-timer.tsx`), in module `Countdown`;
- the dashboard guest table (`components/dashboard/guest-list.tsx`):
  - search;
  - status badge;
  - table-number cell;
  - these are in module `GuestList`;
- the dashboard timeline (`components/dashboard/timeline-view.tsx`):
  - time bubble;
  - category colour;
  - card rendering;
  - these are in module `TimelineView`;
- the landing page's feature-card links (`app/page.tsx`), in module `LandingPage`.

Shared modules:

- `Wrappers`: `Option` and `Result`.
- `Text`: JavaScript's `includes`, `toLowerCase`, `trim`, `startsWith` and `replace`, and string order.
- `Collections`: filter, and a stable sort specified by sortedness and permutation.

## How state is modelled

`Server.Store` is the database. Each collection is a sequence in insertion order. Every identifier comes from one counter, `nextId`, which stands in for MongoDB object ids.

Each route is a method that returns a `Result`. A failure carries the HTTP status and message the route sends; a success carries the record or session the route sends as JSON. Its `ensures` state:

- the new store for every branch: success, 401, 400, 404, or 500 on a failed save;
- that the store invariant `Valid()` is kept.

The invariant says:

- emails are unique;
- user, album and guest ids are distinct and below the counter;
- every record is owned by a stored user;
- every album cover is the image of a photo filed under that album.

Validation failures of a save (a missing required field, a status outside the enum) all end in the route's `catch` and so in the same 500 "Server error". The model has one error value for them.

`Chatbot.Chat` holds the chat window's state: `messages`, `input` and `isOpen`. `Date.now()` ids and `Math.random()` draws are parameters. The bot reply that the source posts from a 500 ms timer is a separate step, `Chat.Respond`. It is fed with the lower-cased text that `SendMessage` or `SuggestionClick` hands back.

### Behaviour worth knowing

The model follows the code in each case:

- A rejected upload is not a 415 or 413 reply. The upload middleware passes its error to the framework's default error handler, which answers with status 500. `Server.UploadError` keeps that status and the refusal's message.
- `GET /api/photos/:albumId` filters by album only, not by the caller (`server/index.js:290`). Any authenticated user can list any album's photos.
- After the first photo of an album is saved, the cover update finds the album by id alone (`server/index.js:278`). A photo filed under another user's album id becomes that album's cover.
- `PUT /api/guests/:id` runs no schema validators. Any status string is stored on update, while a new guest's status must be one of the three enum values.

## Model

| member | source | states |
|---|---|---|
| Upload.Accept | wedding-snap-story/server/index.js:38-58 | A file is accepted iff its MIME type starts with "image/" and its size is at most 5 MiB. A non-image is refused as such whatever its size; an image over the limit is refused as too large. An accepted file is stored as `<uuid>-<original name>` |
| Upload.StoredReference | wedding-snap-story/server/index.js:268 | The stored image reference is "/uploads/" followed by the stored filename, and the filename can be read back from it |
| Upload.OriginalNameRecoverable | wedding-snap-story/server/index.js:38-40 | With a 36-character uuid, an accepted file's reference ends, from position 46, with the file name multer reports, unchanged |
| Upload.ExampleUploads | wedding-snap-story/server/index.js:43-58 | A text file is refused as not an image, a 6 MiB JPEG as too large, and a 2 MiB PNG is stored under `<uuid>-p.png` |
| Upload.IsImage | wedding-snap-story/server/index.js:45 | The declared MIME type is "image/" followed by a subtype |
| Upload.RejectionMessage | wedding-snap-story/server/index.js:48-57 | A refusal has a non-empty message, and the message is "File too large" exactly for a file over the size limit, so the two refusals read differently |
| Server.Matches | wedding-snap-story/server/index.js:203 | `bcrypt.compare`: the key-derivation of the password with the stored salt equals the stored digest |
| Server.HashPassword | wedding-snap-story/server/index.js:159-160 | The stored hash keeps its salt and accepts the password it was made from |
| Server.UploadError | wedding-snap-story/server/index.js:43-58 | A refused upload is answered with status 500 and the refusal's message |
| Server.CompleteRegistration | wedding-snap-story/server/index.js:62-66 | A new user needs a non-empty first and last name, an email and a wedding date |
| Server.ValidAlbumBody | wedding-snap-story/server/index.js:71 | A new album needs a non-empty title |
| Server.ValidGuestBody | wedding-snap-story/server/index.js:90-92 | A new guest needs a non-empty name and email, and a status, if sent, among the three enum values |
| Server.ValidEventBody | wedding-snap-story/server/index.js:100-104 | A new event needs a non-empty time and title, and a category, if sent, among the four enum values |
| Server.ValidHoneymoonBody | wedding-snap-story/server/index.js:110-112 | A new trip needs a non-empty destination, a start date and an end date |
| Server.GuestStatusOf | wedding-snap-story/server/index.js:92 | A new guest's status is the given one, or "pending" when none is given |
| Server.CategoryOf | wedding-snap-story/server/index.js:104 | A new event's category is the given one, or "other" when none is given |
| Server.FindUserByEmail | wedding-snap-story/server/index.js:153 | Finds a stored user with exactly that email, and finds none iff no stored user has it |
| Server.FindUserById | wedding-snap-story/server/index.js:131 | Finds a stored user with that id, and finds none iff no stored user has it |
| Server.Login | wedding-snap-story/server/index.js:192-225 | Login succeeds iff a user with the email exists, a password is sent and the hash accepts it. On success it returns the token signed for that user and the user without the password hash. An unknown email and a wrong password give the same 400 "Invalid credentials"; a found email with no password gives 500 "Server error" |
| Server.Summary | wedding-snap-story/server/index.js:178-184 | The user sent back names the same account (id and email) and carries its first and last name and wedding date |
| Server.SummaryHidesHash | wedding-snap-story/server/index.js:213-219 | The user sent back is the same whatever the password hash and creation time: the reply does not reveal the hash |
| Server.LoginSucceedsIffCredentialsMatch | wedding-snap-story/server/index.js:197-206 | With unique emails, logging in as a stored user succeeds exactly when the password matches that user's hash, and returns that user's session |
| Text.Contains | wedding-snap-story/components/chatbot/fedino-chatbot.tsx:167 | `includes`: true exactly when the pattern occurs at some position of the text, which needs it to be no longer than the text |
| Text.Lower | wedding-snap-story/components/dashboard/guest-list.tsx:44-45 | `toLowerCase`: same length, and each character is lower-cased on its own (ASCII letters) |
| Text.TrimStart | wedding-snap-story/components/chatbot/fedino-chatbot.tsx:111 | What is left is a suffix of the text that does not start with whitespace, and everything removed is whitespace |
| Text.TrimEnd | wedding-snap-story/components/chatbot/fedino-chatbot.tsx:111 | What is left is a prefix of the text that does not end with whitespace, and everything removed is whitespace |
| Text.Trim | wedding-snap-story/components/chatbot/fedino-chatbot.tsx:111 | `trim`: the result occurs in the text with only whitespace before and after it |
| Text.TrimmedEnds | wedding-snap-story/components/chatbot/fedino-chatbot.tsx:111 | A non-empty trimmed text neither starts nor ends with whitespace |
| Text.BlankIffTrimmedEmpty | wedding-snap-story/components/chatbot/fedino-chatbot.tsx:111 | `input.trim() === ""` holds exactly when every character of the input is whitespace, the test `SendMessage` uses |
| Text.StrLe | wedding-snap-story/server/index.js:322 | The string order of the name and time sorts: a prefix comes before any longer string that starts with it |
| Text.StrLeTotal | wedding-snap-story/server/index.js:322 | Any two strings are comparable |
| Text.StrLeAntisymmetric | wedding-snap-story/server/index.js:322 | Two strings each at most the other are equal, so the order ties only equal keys |
| Text.StrLeTransitive | wedding-snap-story/server/index.js:375 | The string order is transitive |
| Text.RemoveFirst | wedding-snap-story/server/index.js:129 | `replace(pat, "")`: the text is unchanged when the pattern does not occur, and otherwise exactly one pattern's length shorter |
| Text.FirstOccurrence | wedding-snap-story/server/index.js:129 | The position of the first occurrence of a pattern that occurs: the pattern is there, and at no earlier position |
| Text.RemoveFirstCutsFirstOccurrence | wedding-snap-story/server/index.js:129 | `replace` with a string pattern cuts out exactly the first occurrence: the text before it joined to the text after it |
| Server.BearerToken | wedding-snap-story/server/index.js:129 | The token is the header with its first "Bearer " removed |
| Server.Authenticate | wedding-snap-story/server/index.js:127-143 | The gate admits a request iff its header is present, the token after "Bearer " verifies, has not expired, and names a stored user. The admitted user is that user. Every refusal is the same 401 "Please authenticate." |
| Server.BearerTokenOfIssued | wedding-snap-story/server/index.js:129 | Removing "Bearer " from "Bearer " + token gives the token back |
| Server.IssuedTokenAuthenticates | wedding-snap-story/server/index.js:127-143 | A valid token issued to a stored user, sent as "Bearer <token>", authenticates as exactly that user |
| Server.ExpiredTokenRefused | wedding-snap-story/server/index.js:130 | The same token past its lifetime is refused with 401 |
| Server.GuestNameOrderIsPreorder | wedding-snap-story/server/index.js:322 | Ordering guests by name is total and transitive, so the sorted list is well defined |
| Server.EventTimeOrderIsPreorder | wedding-snap-story/server/index.js:375 | Ordering events by time label is total and transitive |
| Collections.Filter | wedding-snap-story/components/dashboard/guest-list.tsx:42-46 | `filter`: the result keeps elements of the list in order, and holds exactly the elements that pass the test |
| Collections.FilterCounts | wedding-snap-story/components/dashboard/guest-list.tsx:42-46 | The filter keeps every copy of an element that passes and none of one that fails |
| Collections.SortBy | wedding-snap-story/server/index.js:248 | A database sort returns a permutation of its input |
| Collections.SortBySorted | wedding-snap-story/server/index.js:322 | Under a total preorder on the key, the sorted list is in order |
| Server.AlbumsOf | wedding-snap-story/server/index.js:248 | The result holds exactly the owner's albums, each as often as stored, newest first |
| Server.PhotosOf | wedding-snap-story/server/index.js:290 | The result holds exactly the photos filed under the album, whoever uploaded them, newest first |
| Server.GuestsOf | wedding-snap-story/server/index.js:322 | The result holds exactly the owner's guests, ordered by name |
| Server.EventsOf | wedding-snap-story/server/index.js:375 | The result holds exactly the owner's events, ordered by time label as a string |
| Server.HoneymoonsOf | wedding-snap-story/server/index.js:407 | The result holds exactly the owner's trips, earliest start first |
| Server.TimeLabelsCompareAsStrings | wedding-snap-story/server/index.js:375 | Labels sort as strings, not as clock times: "10:00 AM" sorts before "9:00 AM", and "02:00 PM" before "10:00 AM" |
| Server.CountInAlbum | wedding-snap-story/server/index.js:276 | The count is at most the number of photos, and is zero iff no photo is filed under the album |
| Server.CountInAlbumMatches | wedding-snap-story/server/index.js:276 | The count is exactly the number of photos an `albumId` query matches |
| Server.CountAfterAppend | wedding-snap-story/server/index.js:274-277 | Saving a photo adds one to its album's count, so the count is 1 exactly when the album had no photo before |
| Server.SetCover | wedding-snap-story/server/index.js:278 | Every album with that id gets the cover and every other album is unchanged; no owner is checked |
| Server.FindOwnedGuest | wedding-snap-story/server/index.js:334-335 | Finds the first guest with both the id and the caller as owner, and finds none iff there is no such guest |
| Server.ApplyGuestUpdate | wedding-snap-story/server/index.js:336 | Each field given in the body replaces the stored one, and each field left out keeps its value; a `null` table unassigns the guest. Id, owner and creation time never change |
| Server.UpdateTargetsOnlyThatGuest | wedding-snap-story/server/index.js:334-342 | With distinct guest ids, the updated guest is the only one with that id. A guest with that id owned by someone else is never found |
| Server.PhotoFiled | wedding-snap-story/server/index.js:265-279 | The store after a photo is saved: the photo appended, the counter advanced, and the album's cover set when the album now holds exactly one photo |
| Server.CoverFollowsFirstPhoto | wedding-snap-story/server/index.js:264-279 | Saving a photo appends it. If its album had no photo, every album with that id gets the photo as cover, whoever owns it; otherwise no album changes. Users, guests, events and trips are untouched |
| Server.PhotoFiledKeepsValid | wedding-snap-story/server/index.js:264-279 | Saving a photo of a stored user, and setting the cover, keeps the store invariant, including that every cover is a photo of that album |
| Server.UserAddedKeepsValid | wedding-snap-story/server/index.js:163-171 | Adding a user with a new email and a fresh id keeps the store invariant |
| Server.AlbumAddedKeepsValid | wedding-snap-story/server/index.js:232-238 | Adding a coverless album of a stored user keeps the store invariant |
| Server.GuestAddedKeepsValid | wedding-snap-story/server/index.js:303-312 | Adding a guest of a stored user keeps the store invariant |
| Server.GuestUpdatedKeepsValid | wedding-snap-story/server/index.js:334-338 | Replacing a guest with one of the same id and owner keeps the store invariant |
| Server.EventAddedKeepsValid | wedding-snap-story/server/index.js:356-365 | Adding an event of a stored user keeps the store invariant |
| Server.TripAddedKeepsValid | wedding-snap-story/server/index.js:388-397 | Adding a trip of a stored user keeps the store invariant |
| Server.Store.constructor | wedding-snap-story/server/index.js:60-117 | The empty store satisfies the invariant |
| Server.Store.Register | wedding-snap-story/server/index.js:148-190 | A known email gives 400 "User already exists". A missing password (on which the hash rejects) or an incomplete body gives 500. Each of these leaves the store unchanged. Otherwise exactly one user is appended, with the next id, the hashed password and the body's fields, and the reply is that user's session. Nothing else changes and the invariant is kept |
| Server.Store.CreateAlbum | wedding-snap-story/server/index.js:228-244 | 401 without a valid token and 500 without a title, each with the store unchanged. Otherwise one coverless album owned by the caller is appended with the next id, and it is the reply |
| Server.Store.CreatePhoto | wedding-snap-story/server/index.js:257-286 | 401 without a valid token; the upload error (500) for a refused file; 400 "Please upload an image" without a file; 500 without an album id. Each of these leaves the store unchanged. Otherwise the photo, owned by the caller with the "/uploads/" reference and no likes, is filed as `PhotoFiled` describes |
| Server.Store.FilePhoto | wedding-snap-story/server/index.js:272-279 | Saves the photo, counts its album's photos and sets the cover when the count is one: the new store is `PhotoFiled` of the old one and the invariant holds |
| Server.Store.CreateGuest | wedding-snap-story/server/index.js:299-318 | 401 or 500 (missing name or email, status outside the enum) with the store unchanged. Otherwise one guest owned by the caller is appended, with status defaulting to "pending" and plus-one to false. Its status is always one of the three enum values |
| Server.Store.UpdateGuest | wedding-snap-story/server/index.js:330-349 | 401, or 404 "Guest not found" when the caller owns no guest with that id, each with the store unchanged. Otherwise exactly that guest is replaced by the updated one, which is the reply. No guest with another id changes |
| Server.Store.CreateEvent | wedding-snap-story/server/index.js:352-371 | 401 or 500 (missing time or title, category outside the enum) with the store unchanged. Otherwise one event owned by the caller is appended, with category defaulting to "other" |
| Server.Store.CreateHoneymoon | wedding-snap-story/server/index.js:384-403 | 401, the upload error for a refused file, or 500 for a missing destination or date, with the store unchanged. Otherwise one trip owned by the caller is appended, with the image reference when a file came and none otherwise |
| Server.Store.GetAlbums | wedding-snap-story/server/index.js:246-254 | 401 iff the gate refuses. Otherwise the reply holds the caller's albums and no one else's, each as often as stored, newest first |
| Server.Store.GetPhotos | wedding-snap-story/server/index.js:288-296 | 401 iff the gate refuses. Otherwise the reply holds every photo filed under the album, the caller's or not, each as often as stored, newest first |
| Server.Store.GetGuests | wedding-snap-story/server/index.js:320-328 | 401 iff the gate refuses. Otherwise the reply holds the caller's guests and no one else's, each as often as stored, ordered by name |
| Server.Store.GetEvents | wedding-snap-story/server/index.js:373-381 | 401 iff the gate refuses. Otherwise the reply holds the caller's events and no one else's, each as often as stored, ordered by time label |
| Server.Store.GetHoneymoons | wedding-snap-story/server/index.js:405-413 | 401 iff the gate refuses. Otherwise the reply holds the caller's trips and no one else's, each as often as stored, earliest start first |
| Chatbot.Rank | wedding-snap-story/components/chatbot/fedino-chatbot.tsx:167-326 | Each topic has one position in the `else if` chain |
| Chatbot.FirstMatch | wedding-snap-story/components/chatbot/fedino-chatbot.tsx:167-326 | Returns the index of the first keyword list the message mentions; every earlier list has no keyword in it; None iff no list has one |
| Chatbot.Route | wedding-snap-story/components/chatbot/fedino-chatbot.tsx:167-326 | The chosen topic has a keyword in the message, and every topic earlier in the chain has none. The message falls through to the generic answer iff no topic's keyword occurs in it |
| Chatbot.AdviceBeforeAlbum | wedding-snap-story/components/chatbot/fedino-chatbot.tsx:195 | "consigli" wins over "album" when both occur and no feature or start keyword does, because the tips branch comes first |
| Chatbot.Mentions | wedding-snap-story/components/chatbot/fedino-chatbot.tsx:167 | A chain of `includes` tests joined by `||` holds iff one of the keywords occurs in the message |
| Chatbot.Keywords | wedding-snap-story/components/chatbot/fedino-chatbot.tsx:167-317 | Every branch of the chain tests for at least one substring; a topic's substrings are its row of the keyword table, carried verbatim |
| Chatbot.RankOfPosition | wedding-snap-story/components/chatbot/fedino-chatbot.tsx:167-326 | The topic at each position of the chain has that position as its rank, so rank and position are inverse |
| Chatbot.Answer | wedding-snap-story/components/chatbot/fedino-chatbot.tsx:170-321 | The fixed text of each branch's answer |
| Chatbot.KindOf | wedding-snap-story/components/chatbot/fedino-chatbot.tsx:173-324 | The `type` of each branch's answer |
| Chatbot.ActionsOf | wedding-snap-story/components/chatbot/fedino-chatbot.tsx:174-315 | The buttons under each branch's answer |
| Chatbot.FeatureButtons | wedding-snap-story/components/chatbot/fedino-chatbot.tsx:167-181 | The feature answer is a navigation message whose five buttons go, in order, to the five dashboard sections |
| Chatbot.Fallback | wedding-snap-story/components/chatbot/fedino-chatbot.tsx:326-349 | The generic answer is the fixed apology followed by one of the five anecdotes or tips. It is typed anecdote or tip and offers the two suggestion buttons |
| Chatbot.TopicReply | wedding-snap-story/components/chatbot/fedino-chatbot.tsx:167-325 | A topic's reply has that topic's type and buttons from the per-topic tables. Every topic but tips and anecdotes answers with its fixed text; a tips reply is one of the five tips and an anecdote reply one of the five anecdotes |
| Chatbot.GenerateResponse | wedding-snap-story/components/chatbot/fedino-chatbot.tsx:147-351 | Every reply comes from the bot, carries the given id and has a type. For a routed topic, the type and buttons are that topic's, and so is the fixed text unless the topic is tips or anecdotes, whose text is one of the five canned ones. Text no topic matches gets the apology followed by a tip or anecdote, typed as one of them, with the two suggestion buttons |
| Chatbot.NavigationNotice | wedding-snap-story/components/chatbot/fedino-chatbot.tsx:353-364 | The navigation notice is an untyped bot message without buttons whose text starts with "Ti sto portando" |
| Chatbot.CountsAsUnread | wedding-snap-story/components/chatbot/fedino-chatbot.tsx:396 | A message that counts is never the user's, and a navigation notice never counts |
| Chatbot.Badge | wedding-snap-story/components/chatbot/fedino-chatbot.tsx:396-397 | The unread count: bot messages without "Ti sto portando", minus the user's messages |
| Chatbot.BadgeShown | wedding-snap-story/components/chatbot/fedino-chatbot.tsx:394 | The count is shown only while the log is non-empty and the window closed |
| Chatbot.BadgeAppend | wedding-snap-story/components/chatbot/fedino-chatbot.tsx:396-397 | A new message raises the badge by one if it is a bot message without the navigation marker and lowers it by one if it is a user message |
| Chatbot.TwoUnread | wedding-snap-story/components/chatbot/fedino-chatbot.tsx:396-397 | Two bot messages without the navigation marker, and nothing before them, show a badge of 2 |
| Chatbot.NavigationKeepsBadge | wedding-snap-story/components/chatbot/fedino-chatbot.tsx:357-364 | A navigation notice does not change the badge |
| Chatbot.UserMessageLowersBadge | wedding-snap-story/components/chatbot/fedino-chatbot.tsx:396-397 | Each user message takes one off the badge, so the badge can go negative |
| Chatbot.MissingFirstLetter | wedding-snap-story/components/chatbot/fedino-chatbot.tsx:396 | Text lacking the first letter of the marker cannot contain the marker |
| Chatbot.WelcomeUnmarked | wedding-snap-story/components/chatbot/fedino-chatbot.tsx:42-50 | Neither welcome text contains "Ti sto portando" |
| Chatbot.WelcomeBadge | wedding-snap-story/components/chatbot/fedino-chatbot.tsx:37-69 | The two welcome messages show a badge of 2 |
| Chatbot.Chat.constructor | wedding-snap-story/components/chatbot/fedino-chatbot.tsx:28-30 | The window starts closed, with an empty log and an empty input |
| Chatbot.Chat.Greet | wedding-snap-story/components/chatbot/fedino-chatbot.tsx:37-69 | The mount effect puts the two welcome messages only into an empty log; the badge then reads 2 and is shown while the window is closed. A non-empty log is left alone |
| Chatbot.Chat.Type | wedding-snap-story/components/chatbot/fedino-chatbot.tsx:565 | Typing sets the input and nothing else |
| Chatbot.Chat.Toggle | wedding-snap-story/components/chatbot/fedino-chatbot.tsx:382-385 | The chat button flips the window open or closed and nothing else; opening hides the count, and closing shows it iff the log is non-empty |
| Chatbot.Chat.SendMessage | wedding-snap-story/components/chatbot/fedino-chatbot.tsx:108-128 | Blank input (whitespace only) changes nothing. Otherwise the raw input is appended as the user's message and the box is cleared. The lower-cased input is handed on for the reply |
| Chatbot.Chat.SuggestionClick | wedding-snap-story/components/chatbot/fedino-chatbot.tsx:130-145 | The suggestion is appended as the user's message and its lower-cased text is handed on for the reply; the input box is untouched |
| Chatbot.Chat.Respond | wedding-snap-story/components/chatbot/fedino-chatbot.tsx:124-127 | The bot's answer to the handed-on text is appended to the log |
| Chatbot.Chat.NavigateTo | wedding-snap-story/components/chatbot/fedino-chatbot.tsx:353-370 | The notice "Ti sto portando a <path>..." is appended and the badge stays the same |
| Countdown.CalculateTimeLeft | wedding-snap-story/components/countdown-timer.tsx:22-35 | All zeros once the target has passed. Otherwise: whole days; hours below 24; minutes and seconds below 60; the reading falls short of the difference by less than one second |
| Countdown.SplitSeconds | wedding-snap-story/components/countdown-timer.tsx:27-30 | Whole seconds are exactly days, hours, minutes and seconds recombined |
| Countdown.SecondsThenUnits | wedding-snap-story/components/countdown-timer.tsx:28-29 | Dividing by 1000 and then by 60 gives the same whole minutes as dividing by 60000, and likewise for hours and days |
| Countdown.UnitsOfSeconds | wedding-snap-story/components/countdown-timer.tsx:27-30 | An in-range reading is recovered unit by unit from the whole seconds it stands for: days by 86400, hours by 3600 modulo 24, minutes by 60 modulo 60, seconds modulo 60 |
| Countdown.ReadingIsUnique | wedding-snap-story/components/countdown-timer.tsx:25-31 | Any in-range reading within a second below the difference is the one computed |
| GuestList.Matches | wedding-snap-story/components/dashboard/guest-list.tsx:43-45 | A guest matches iff the lower-cased query occurs in its lower-cased name or its lower-cased email |
| GuestList.SearchFilter | wedding-snap-story/components/dashboard/guest-list.tsx:42-46 | Keeps, in table order, exactly the guests whose lower-cased name or email contains the lower-cased query, each as many times as it occurs; an empty query keeps all |
| GuestList.LowerIdempotent | wedding-snap-story/components/dashboard/guest-list.tsx:44-45 | Lower-casing twice is lower-casing once |
| GuestList.SearchIgnoresQueryCase | wedding-snap-story/components/dashboard/guest-list.tsx:42-46 | A query and its lower-cased form find the same guests |
| GuestList.Tint | wedding-snap-story/components/dashboard/guest-list.tsx:51-55 | The badge classes begin with "bg-" followed by the hue |
| GuestList.StatusColor | wedding-snap-story/components/dashboard/guest-list.tsx:48-57 | `getStatusColor`: the green, amber or red badge classes |
| GuestList.StatusColorsDistinct | wedding-snap-story/components/dashboard/guest-list.tsx:48-57 | Two statuses share a badge colour iff they are the same status |
| GuestList.Capitalize | wedding-snap-story/components/dashboard/guest-list.tsx:93 | Upper-cases the first character and keeps the rest |
| GuestList.LowerUndoesCapitalize | wedding-snap-story/components/dashboard/guest-list.tsx:93 | Lower-casing a capitalized lower-case word gives the word back |
| GuestList.StatusLabel | wedding-snap-story/components/dashboard/guest-list.tsx:93 | The badge text is the stored status with its first letter upper-cased; lower-casing it gives the status back |
| GuestList.PendingLabel | wedding-snap-story/components/dashboard/guest-list.tsx:93 | The pending badge reads "Pending" |
| GuestList.NatToString | wedding-snap-story/components/dashboard/guest-list.tsx:103 | Decimal digits only, at least one, no leading zero |
| GuestList.NatToStringRoundTrip | wedding-snap-story/components/dashboard/guest-list.tsx:103 | Reading back the printed digits gives the number |
| GuestList.IntToString | wedding-snap-story/components/dashboard/guest-list.tsx:103 | Starts with a minus iff the number is negative. What follows the sign is decimal digits only, at least one and without a leading zero, and reads back as the magnitude |
| GuestList.TableCell | wedding-snap-story/components/dashboard/guest-list.tsx:103 | Shows "-" iff there is no table or the table is 0 (JavaScript treats 0 as false). Otherwise it shows the number |
| TimelineView.BubbleLabel | wedding-snap-story/components/dashboard/timeline-view.tsx:120 | The bubble is a prefix of the time without spaces, followed in the time by a space or the end; the whole time when it has no space |
| TimelineView.BubbleLabelIsFirstWord | wedding-snap-story/components/dashboard/timeline-view.tsx:120 | That prefix is unique: any space-free prefix followed by a space or the end is the bubble |
| TimelineView.MorningBubble | wedding-snap-story/components/dashboard/timeline-view.tsx:120 | "08:00 AM" shows the bubble "08:00" |
| TimelineView.Tint | wedding-snap-story/components/dashboard/timeline-view.tsx:105-111 | The card classes begin with "border-" followed by the hue |
| TimelineView.CategoryColor | wedding-snap-story/components/dashboard/timeline-view.tsx:102-113 | `getCategoryColor`: the blue, purple, amber or gray card classes |
| TimelineView.CategoryColorsDistinct | wedding-snap-story/components/dashboard/timeline-view.tsx:102-113 | Two categories share a card colour iff they are the same category |
| TimelineView.Render | wedding-snap-story/components/dashboard/timeline-view.tsx:117-157 | One card per event, in order, keyed by the event id, with its title, description, location, full time and category colour; its bubble is `BubbleLabel` of the time, the text before the first space |
| TimelineView.RenderAppend | wedding-snap-story/components/dashboard/timeline-view.tsx:117 | Rendering a concatenation renders each part in turn |
| LandingPage.SkipWhitespace | wedding-snap-story/app/page.tsx:258 | Drops leading whitespace only: the result is no longer and does not start with whitespace |
| LandingPage.Dashify | wedding-snap-story/app/page.tsx:258 | The result has no whitespace and is no longer than the input |
| LandingPage.DashifyKeepsWord | wedding-snap-story/app/page.tsx:258 | Text without whitespace passes through unchanged |
| LandingPage.SkipRun | wedding-snap-story/app/page.tsx:258 | Skipping whitespace consumes exactly a leading run |
| LandingPage.DashifyRun | wedding-snap-story/app/page.tsx:258 | A leading run of whitespace becomes one hyphen |
| LandingPage.RunBecomesOneHyphen | wedding-snap-story/app/page.tsx:258 | Any run of whitespace between a word and the rest becomes exactly one hyphen, whatever its length |
| LandingPage.Slug | wedding-snap-story/app/page.tsx:258 | A feature slug contains no whitespace |
| LandingPage.LowerConcat | wedding-snap-story/app/page.tsx:258 | Lower-casing distributes over concatenation |
| LandingPage.FeatureLink | wedding-snap-story/app/page.tsx:258 | A card links to "/features/" followed by the slug of its title |
| LandingPage.LowerThreeWords | wedding-snap-story/app/page.tsx:258 | Lower-casing three space-separated words lower-cases each word |
| LandingPage.LowerCapitalised | wedding-snap-story/app/page.tsx:258 | A word with only its first letter capitalised lower-cases to that letter lower-cased followed by the rest unchanged |
| LandingPage.DashTwoWords | wedding-snap-story/app/page.tsx:258 | A single space between two words becomes a hyphen |
| LandingPage.DashThreeWords | wedding-snap-story/app/page.tsx:258 | Three words separated by single spaces are joined by hyphens |
| LandingPage.AlbumSlug | wedding-snap-story/app/page.tsx:217-258 | The first card, "Digital Wedding Album", links to "digital-wedding-album" |

## Left out

- Password hashing and token signing and verification (bcrypt, jsonwebtoken) are function parameters. The model does not contain the cryptography, and a token's seven-day lifetime is an `expired` flag in the verified claims.
- The database, the HTTP framework and disk storage of uploads are not modelled as I/O: the document store is a class, and creating the upload directory and writing the file are left out. The clock (`Date.now`), the salt, the random file identifier and the random message ids are parameters.
- Concurrency is left out; the model runs each request to completion. In the source each request counts its album's photos after its own save (`server/index.js:273-276`). So when two photos are saved at the same time under an empty album, at most one of them can see a count of 1. If both saves land before either count, both see 2 and the album gets no cover at all.
- Server.Store.Register: the email is always a string. What the lookup does with a body that leaves the email out depends on how the driver encodes `undefined`, and is not modelled.
- Server.AlbumsOf, Server.PhotosOf, Server.GuestsOf, Server.EventsOf, Server.HoneymoonsOf: the contracts state the exact contents and the sort order, but not the order of records with equal keys, which the database does not fix either.
- Server.ApplyGuestUpdate: assumes the store drops update fields the body leaves out (as current Mongoose releases do); an older release that wrote them as null is not modelled. Only `table` can be sent as `null`: an explicit `null` for the name, email, status or plus-one, which the unvalidated update would store, is not modelled, because the guest record gives those fields no null value.
- Server.Login: the email is always a string. What the lookup does with a body that leaves the email out depends on how the driver encodes `undefined`, and is not modelled.
- Success status codes are not carried: the source answers 201 for registration and every create, and 200 for login, the lists and the update.
- Upload.Accept: the file is what multer reports in `req.file`. Multer drops a file part whose name is empty, so such a request has no file and gets the 400 "Please upload an image". It also keeps only the base name of a name with directories. Neither step is modelled: the original name is taken as multer reports it.
- Server.UploadError: the framework's default error handler sends an HTML error page (with the stack trace in development, "Internal Server Error" in production), not a JSON message. The model keeps only the status and the refusal's message.
- Date fields (wedding date, trip dates, creation times) are integers in milliseconds; Date parsing and casting errors of the body are not modelled.
- Other database failures (a lost connection, two registrations with one email racing past the duplicate check) end in the same 500 in the source; the model's store never fails.
- Chatbot: the proactive inactivity modal (a 30-second timer, a 60-second idle check and a 70 % draw), scrolling to the newest message, `router.push`, and the timer that closes the window one second after a navigation are left out. These are timers and browser effects; only their effect on the message log is kept.
- Chatbot: `Math.random()` draws are a parameter (`Draws`): which tip or anecdote is chosen, and the two coin flips of the generic answer. The fixed texts, types and buttons of the other topics are the tables `Answer`, `KindOf` and `ActionsOf`, carried verbatim; the reply contracts tie each routed reply to its topic's entries.
- Chatbot: message timestamps are left out; they are shown nowhere the model covers.
- Countdown: the clock and the one-second interval are left out; the input is the difference in whole milliseconds. JavaScript's floating-point division is modelled as exact division followed by flooring, which agrees for the integer millisecond differences that `Date` produces.
- Countdown: when the target date string does not parse, the source computes with NaN and shows zeros; this is not modelled.
- GuestList: table numbers are integers; a fractional table number is not modelled. Case mapping in `Text.Lower` and `Text.UpperChar` is ASCII only; Unicode case mapping is not modelled.
- GuestList, TimelineView: the sample data in the components and all static markup (icons, dialogs, dropdown menus) are left out.
- LandingPage: only the feature-card links are modelled; the rest of the page is static markup and animation.

=== FILE: chatbot.dfy ===
/**
 * Fedino, the site's chat assistant: a keyword router that picks the first
 * matching topic for a lower-cased message and builds the bot's reply, and
 * the chat window's message log, to which every event appends.
 *
 * `Date.now()` ids and `Math.random()` draws are parameters; the reply that
 * the source posts after a 500 ms timer is modelled as a separate step
 * (`Chat.Respond`) fed with the text the send step hands back.
 */
module Chatbot {
  import opened Wrappers
  import opened Text
  import opened Collections

  datatype Sender = User | Bot

  /** The optional `type` of a message. */
  datatype Kind = Plain | Suggestion | Navigation | Anecdote | Tip

  /**
   * A button under a message, shown with `caption`: it either navigates to `path` or posts
   * `suggestion` as if the user had sent it (`handleSuggestionClick`).
   */
  datatype Action = Action(caption: string, path: Option<string>, suggestion: Option<string>)

  datatype Message = Message(id: string, content: string, sender: Sender, kind: Option<Kind>, actions: seq<Action>)

  function Go(caption: string, path: string): Action {
    Action(caption, Some(path), None)
  }

  function Ask(caption: string, suggestion: string): Action {
    Action(caption, None, Some(suggestion))
  }

  // ----- Canned texts -----

  const Anecdotes: seq<string> := [
    "Lo sapevi che la tradizione di lanciare il riso agli sposi simboleggia fertilità e prosperità? Oggi molti optano per alternative eco-friendly come bolle di sapone o petali di fiori!",
    "Un tempo, il velo della sposa serviva a proteggerla dagli spiriti maligni. Oggi è diventato un bellissimo accessorio di stile!",
    "La tradizione della torta nuziale risale all'antica Roma, dove si rompeva una focaccia sulla testa della sposa come simbolo di fertilità!",
    "Il 'qualcosa di blu' nella tradizione 'qualcosa di vecchio, nuovo, prestato e blu' rappresenta purezza, fedeltà e amore.",
    "Lo sapevi che il mese di giugno prende il nome dalla dea romana Giunone, protettrice del matrimonio? Per questo è considerato il mese ideale per sposarsi!"
  ]

  const Tips: seq<string> := [
    "Consiglio: Crea una lista di riproduzione con le tue canzoni preferite da condividere con il DJ. La musica giusta può trasformare completamente l'atmosfera della festa!",
    "Consiglio: Assegna un 'coordinatore del giorno' che si occupi di gestire i piccoli imprevisti, così tu potrai goderti ogni momento senza stress.",
    "Consiglio: Prepara un kit di emergenza con tutto il necessario: fazzoletti, cerotti, spille da balia, rossetto per ritocchi e una bottiglietta d'acqua.",
    "Consiglio: Fai delle pause durante il ricevimento per assorbire tutto. Il giorno passa in un lampo, prenditi dei momenti per te e il tuo partner.",
    "Consiglio: Considera di fare un 'first look' prima della cerimonia. È un momento intimo per voi due e permette di fare più foto prima che arrivino gli ospiti."
  ]

  const AskFeatures := "Quali sono le funzionalità del sito?"
  const AskTips := "Hai consigli per organizzare il matrimonio?"
  const AskStart := "Come posso iniziare a usare l'app?"
  const AskOtherFeatures := "Quali sono le altre funzionalità?"

  const FallbackPrefix := "Non sono sicuro di aver capito completamente. Posso aiutarti con informazioni sulle funzionalità del sito, consigli per il matrimonio o navigazione nel sito. Nel frattempo, ecco qualcosa che potrebbe interessarti:\n\n"

  /** The marker the unread badge uses to skip navigation notices. */
  const NavigationMarker := "Ti sto portando"

  const FeaturePaths: seq<string> :=
    ["/dashboard/album", "/dashboard/sharing", "/dashboard/guests", "/dashboard/timeline", "/dashboard/honeymoon"]

  // ----- The keyword router -----

  /** The topics of the `else if` chain of `generateResponse`, in source order. */
  datatype Topic =
    | Features | Start | Advice | Lore | Identity | Thanks | Greeting
    | AlbumInfo | GuestInfo | TimelineInfo | HoneymoonInfo | Creator

  /** The order in which the chain tries the topics. */
  const Order: seq<Topic> :=
    [Features, Start, Advice, Lore, Identity, Thanks, Greeting, AlbumInfo, GuestInfo, TimelineInfo, HoneymoonInfo, Creator]

  /** The position of a topic in the chain. */
  function Rank(t: Topic): (r: nat)
    ensures r < |Order| && Order[r] == t
  {
    match t
    case Features => 0
    case Start => 1
    case Advice => 2
    case Lore => 3
    case Identity => 4
    case Thanks => 5
    case Greeting => 6
    case AlbumInfo => 7
    case GuestInfo => 8
    case TimelineInfo => 9
    case HoneymoonInfo => 10
    case Creator => 11
  }

  /** The topic at a position of the chain has that position as its rank. */
  lemma RankOfPosition(i: nat)
    requires i < |Order|
    ensures Rank(Order[i]) == i
  {
    if i < 4 {
      if i == 0 {} else if i == 1 {} else if i == 2 {} else {}
    } else if i < 8 {
      if i == 4 {} else if i == 5 {} else if i == 6 {} else {}
    } else {
      if i == 8 {} else if i == 9 {} else if i == 10 {} else {}
    }
  }

  /**
   * The substrings each branch of the chain tests for, one row per topic
   * in the order the chain tries them.
   */
  const KeywordTable: seq<seq<string>> := [
    ["funzionalità", "cosa può fare", "cosa offre"],
    ["iniziare", "registrarsi", "creare account"],
    ["consigli", "suggerimenti", "aiuto"],
    ["aneddoto", "curiosità", "tradizione"],
    ["chi sei", "come ti chiami"],
    ["grazie", "thank"],
    ["ciao", "salve", "buongiorno", "buonasera"],
    ["album", "foto"],
    ["ospiti", "invitati", "guest"],
    ["timeline", "programma", "agenda"],
    ["luna di miele", "honeymoon", "viaggio"],
    ["vikingo", "creatore", "sviluppatore"]
  ]

  /** The substrings that select a topic: its row of the table. */
  function Keywords(t: Topic): (r: seq<string>)
    ensures r != []
  {
    KeywordTable[Rank(t)]
  }

  /** `message.includes(k1) || message.includes(k2) || ...`. */
  predicate Mentions(message: string, keywords: seq<string>)
    ensures Mentions(message, keywords) <==> exists k :: 0 <= k < |keywords| && Contains(message, keywords[k])
  {
    if keywords == [] then false
    else Contains(message, keywords[0]) || Mentions(message, keywords[1..])
  }

  /**
   * The position of the first keyword list in `lists` that the message
   * mentions: every list before it is passed over, and there is none when
   * the message mentions no list.
   */
  function FirstMatch(message: string, lists: seq<seq<string>>): (r: Option<nat>)
    ensures r.None? <==> forall i :: 0 <= i < |lists| ==> !Mentions(message, lists[i])
    ensures r.Some? ==> r.value < |lists| && Mentions(message, lists[r.value])
    ensures r.Some? ==> forall j :: 0 <= j < r.value ==> !Mentions(message, lists[j])
  {
    if lists == [] then None
    else if Mentions(message, lists[0]) then Some(0)
    else
      match FirstMatch(message, lists[1..])
      case None => None
      case Some(i) => Some(i + 1)
  }

  /**
   * The topic `generateResponse` answers for an already lower-cased
   * message: one whose keywords it mentions and such that it mentions
   * none of an earlier topic; none when it mentions no keyword at all.
   */
  function Route(message: string): (r: Option<Topic>)
    ensures r.None? <==> forall t :: !Mentions(message, Keywords(t))
    ensures r.Some? ==> Mentions(message, Keywords(r.value))
    ensures r.Some? ==> forall t :: Rank(t) < Rank(r.value) ==> !Mentions(message, Keywords(t))
  {
    match FirstMatch(message, KeywordTable)
    case None =>
      forall t
        ensures !Mentions(message, Keywords(t))
      {
        assert Keywords(t) == KeywordTable[Rank(t)];
      }
      None
    case Some(i) =>
      RankOfPosition(i);
      assert Mentions(message, Keywords(Order[i]));
      Some(Order[i])
  }

  /** Text with a tips keyword gets a tip unless it also asks about features or getting started. */
  lemma AdviceBeforeAlbum(message: string)
    requires Contains(message, "consigli") && Contains(message, "album")
    requires !Mentions(message, Keywords(Features)) && !Mentions(message, Keywords(Start))
    ensures Route(message) == Some(Advice)
  {
    assert Keywords(Advice)[0] == "consigli";
    assert Mentions(message, Keywords(Advice));
    var r := Route(message);
    assert Rank(r.value) <= 2;
  }

  // ----- The reply -----

  /**
   * The random draws one reply may use: `Math.floor(Math.random() * 5)` as
   * `pick`, and the two `Math.random() > 0.5` coin flips of the fallback
   * (one chooses the text, the other the message type).
   */
  datatype Draws = Draws(pick: nat, anecdoteText: bool, anecdoteKind: bool)

  function BotMessage(id: string, content: string, kind: Kind, actions: seq<Action>): Message {
    Message(id, content, Bot, Some(kind), actions)
  }

  /** The fixed text of each topic's answer; tips and anecdotes are drawn at random instead. */
  function Answer(t: Topic): string {
    match t
    case Features => "WeddingSnapStory offre numerose funzionalità per rendere il tuo matrimonio indimenticabile:"
    case Start => "Iniziare con WeddingSnapStory è semplicissimo! Ecco cosa devi fare:"
    case Advice => ""
    case Lore => ""
    case Identity => "Sono Fedino, il tuo assistente virtuale per WeddingSnapStory! Il mio nome deriva da 'fede nuziale' perché sono qui per aiutarti con tutto ciò che riguarda il tuo matrimonio. Sono stato creato da Il Vikingo del Web per rendere la tua esperienza sul sito ancora più speciale!"
    case Thanks => "È un piacere aiutarti! Se hai altre domande, sono qui per te. Ti auguro un matrimonio meraviglioso! 💍✨"
    case Greeting => "Ciao! Sono felice di aiutarti oggi. Come posso rendere i preparativi del tuo matrimonio più semplici?"
    case AlbumInfo => "Il nostro Album Digitale ti permette di raccogliere e organizzare tutte le foto del tuo matrimonio in un unico posto! Puoi creare album personalizzati, aggiungere descrizioni e condividerli con i tuoi ospiti. Vuoi vedere come funziona?"
    case GuestInfo => "La Gestione Ospiti ti aiuta a tenere traccia di tutti i tuoi invitati, gestire gli RSVP e organizzare i tavoli. Puoi anche inviare inviti digitali e aggiornamenti direttamente dall'app!"
    case TimelineInfo => "La Timeline del Matrimonio ti permette di pianificare ogni momento del tuo grande giorno! Puoi creare un programma dettagliato, impostare promemoria e condividerlo con il tuo wedding planner e i fornitori."
    case HoneymoonInfo => "La sezione Luna di Miele ti permette di pianificare e documentare il vostro viaggio post-matrimonio! Puoi aggiungere destinazioni, creare un itinerario e condividere foto e ricordi con amici e familiari."
    case Creator => "WeddingSnapStory è stato creato da Il Vikingo del Web, un talentuoso sviluppatore web specializzato in applicazioni innovative e user-friendly. Puoi trovare il suo logo nel footer del sito!"
  }

  /** The `type` of each topic's answer. */
  function KindOf(t: Topic): Kind {
    match t
    case Features => Navigation
    case Start => Navigation
    case Advice => Tip
    case Lore => Anecdote
    case Identity => Plain
    case Thanks => Plain
    case Greeting => Suggestion
    case AlbumInfo => Navigation
    case GuestInfo => Navigation
    case TimelineInfo => Navigation
    case HoneymoonInfo => Navigation
    case Creator => Plain
  }

  /** The buttons under each topic's answer. */
  function ActionsOf(t: Topic): seq<Action> {
    match t
    case Features =>
      [Go("Album Digitale", FeaturePaths[0]), Go("Condivisione Foto", FeaturePaths[1]),
       Go("Gestione Ospiti", FeaturePaths[2]), Go("Timeline Matrimonio", FeaturePaths[3]),
       Go("Pianificazione Luna di Miele", FeaturePaths[4])]
    case Start =>
      [Go("Registrati", "/auth/register"), Go("Accedi se hai già un account", "/auth/login"), Go("Guarda la demo", "/demo")]
    case Greeting => [Ask("Funzionalità del sito", AskFeatures), Ask("Consigli per il matrimonio", AskTips)]
    case AlbumInfo => [Go("Vai all'Album Digitale", "/dashboard/album"), Ask("Scopri altre funzionalità", AskOtherFeatures)]
    case GuestInfo => [Go("Gestisci i tuoi ospiti", "/dashboard/guests"), Ask("Scopri altre funzionalità", AskOtherFeatures)]
    case TimelineInfo => [Go("Vai alla Timeline", "/dashboard/timeline"), Ask("Scopri altre funzionalità", AskOtherFeatures)]
    case HoneymoonInfo => [Go("Pianifica la Luna di Miele", "/dashboard/honeymoon"), Ask("Scopri altre funzionalità", AskOtherFeatures)]
    case _ => []
  }

  /** The feature answer carries one navigation button per dashboard section, in order. */
  lemma FeatureButtons()
    ensures KindOf(Features) == Navigation
    ensures |ActionsOf(Features)| == |FeaturePaths|
    ensures forall i :: 0 <= i < |FeaturePaths| ==>
              ActionsOf(Features)[i].path == Some(FeaturePaths[i]) && ActionsOf(Features)[i].suggestion == None
  {
  }

  /**
   * The answer to text no topic matches: the fixed apology followed by a
   * tip or an anecdote, typed at random as one or the other, and the two
   * suggestion buttons.
   */
  function Fallback(id: string, draws: Draws): (r: Message)
    requires draws.pick < 5
    ensures r.sender == Bot && r.id == id
    ensures && StartsWith(r.content, FallbackPrefix)
              && r.content[|FallbackPrefix|..] in Anecdotes + Tips
              && r.kind in {Some(Anecdote), Some(Tip)}
              && |r.actions| == 2 && r.actions[0].suggestion == Some(AskFeatures) && r.actions[1].suggestion == Some(AskTips)
  {
    var extra := if draws.anecdoteText then Anecdotes[draws.pick] else Tips[draws.pick];
    assert (FallbackPrefix + extra)[|FallbackPrefix|..] == extra;
    BotMessage(id, FallbackPrefix + extra, if draws.anecdoteKind then Anecdote else Tip,
      [Ask("Funzionalità del sito", AskFeatures), Ask("Consigli per il matrimonio", AskTips)])
  }

  /**
   * The answer to a topic: a tip or an anecdote drawn at random for those
   * two, the topic's fixed text, type and buttons for the others.
   */
  function TopicReply(t: Topic, id: string, draws: Draws): (r: Message)
    requires draws.pick < 5
    ensures r.sender == Bot && r.id == id && r.kind == Some(KindOf(t)) && r.actions == ActionsOf(t)
    ensures t != Advice && t != Lore ==> r.content == Answer(t)
    ensures t == Advice ==> r.content in Tips && r.actions == []
    ensures t == Lore ==> r.content in Anecdotes && r.actions == []
  {
    if t == Advice then BotMessage(id, Tips[draws.pick], Tip, [])
    else if t == Lore then BotMessage(id, Anecdotes[draws.pick], Anecdote, [])
    else BotMessage(id, Answer(t), KindOf(t), ActionsOf(t))
  }

  /**
   * `generateResponse(message)`: the bot's answer to lower-cased text.  A
   * feature question gets the five dashboard links; a tips or anecdote
   * question gets one of the five canned texts of that kind; text that no
   * group matches gets the fixed apology followed by a tip or an anecdote,
   * and two suggestion buttons.
   */
  function GenerateResponse(message: string, id: string, draws: Draws): (r: Message)
    requires draws.pick < 5
    ensures r.sender == Bot && r.id == id && r.kind.Some?
    ensures Route(message).Some? ==>
              r.kind == Some(KindOf(Route(message).value)) && r.actions == ActionsOf(Route(message).value)
    ensures Route(message).Some? && Route(message).value != Advice && Route(message).value != Lore ==>
              r.content == Answer(Route(message).value)
    ensures Route(message) == Some(Advice) ==> r.kind == Some(Tip) && r.content in Tips && r.actions == []
    ensures Route(message) == Some(Lore) ==> r.kind == Some(Anecdote) && r.content in Anecdotes && r.actions == []
    ensures Route(message) == None ==>
              && StartsWith(r.content, FallbackPrefix)
              && r.content[|FallbackPrefix|..] in Anecdotes + Tips
              && r.kind in {Some(Anecdote), Some(Tip)}
              && |r.actions| == 2 && r.actions[0].suggestion == Some(AskFeatures) && r.actions[1].suggestion == Some(AskTips)
  {
    match Route(message)
    case Some(t) => TopicReply(t, id, draws)
    case None => Fallback(id, draws)
  }

  // ----- The message log -----

  /** The two bot messages the chat opens with, ids "1" and "2". */
  const Hello := Hello1 + Hello2 + Hello3
  const Offer := Offer1 + Offer2 + Offer3 + Offer4 + Offer5 + Offer6

  // The welcome texts, phrase by phrase.
  const Hello1 := "Ciao! Sono Fedino, "
  const Hello2 := "il tuo assistente "
  const Hello3 := "per WeddingSnapStory! 💍"
  const Offer1 := "Posso aiutarti a scoprire "
  const Offer2 := "tutte le funzionalità "
  const Offer3 := "del nostro sito e "
  const Offer4 := "darti consigli per "
  const Offer5 := "il tuo matrimonio. "
  const Offer6 := "Cosa vorresti sapere?"

  const Welcome: seq<Message> := [
    BotMessage("1", Hello, Plain, []),
    BotMessage("2", Offer, Suggestion,
      [Ask("Funzionalità del sito", AskFeatures), Ask("Consigli per il matrimonio", AskTips), Ask("Come iniziare", AskStart)])
  ]

  function UserMessage(id: string, content: string): Message {
    Message(id, content, User, None, [])
  }

  /** The notice `navigateTo(path)` posts; it has no type. */
  function NavigationNotice(id: string, path: string): (m: Message)
    ensures m.sender == Bot && m.kind == None && m.actions == []
    ensures StartsWith(m.content, NavigationMarker)
  {
    var content := "Ti sto portando a " + path + "...";
    assert content == NavigationMarker + (" a " + path + "...");
    assert content[..|NavigationMarker|] == NavigationMarker;
    Message(id, content, Bot, None, [])
  }

  /** A bot message other than a navigation notice; never the user's own message. */
  predicate CountsAsUnread(m: Message)
    ensures CountsAsUnread(m) ==> !IsUserMessage(m)
    ensures StartsWith(m.content, NavigationMarker) ==> !CountsAsUnread(m)
  {
    m.sender == Bot && !Contains(m.content, NavigationMarker)
  }

  predicate IsUserMessage(m: Message) {
    m.sender == User
  }

  /**
   * The number on the chat button: bot messages other than navigation
   * notices, minus the user's messages.  It may be negative.
   */
  function Badge(messages: seq<Message>): int {
    |Filter(messages, CountsAsUnread)| - |Filter(messages, IsUserMessage)|
  }

  /** The button shows the badge only while the window is closed and the log non-empty. */
  predicate BadgeShown(messages: seq<Message>, isOpen: bool) {
    |messages| > 0 && !isOpen
  }

  /** Every posted message moves the badge by its own weight. */
  lemma BadgeAppend(messages: seq<Message>, m: Message)
    ensures Badge(messages + [m]) == Badge(messages) + (if CountsAsUnread(m) then 1 else 0) - (if IsUserMessage(m) then 1 else 0)
  {
    FilterAppend(messages, m, CountsAsUnread);
    FilterAppend(messages, m, IsUserMessage);
  }

  /** A navigation notice leaves the badge as it was. */
  lemma NavigationKeepsBadge(messages: seq<Message>, id: string, path: string)
    ensures Badge(messages + [NavigationNotice(id, path)]) == Badge(messages)
  {
    var m := NavigationNotice(id, path);
    assert Contains(m.content, NavigationMarker);
    BadgeAppend(messages, m);
  }

  /** Each user message takes one off the badge. */
  lemma UserMessageLowersBadge(messages: seq<Message>, id: string, content: string)
    ensures Badge(messages + [UserMessage(id, content)]) == Badge(messages) - 1
  {
    BadgeAppend(messages, UserMessage(id, content));
  }

  /** A text without the letter that starts a pattern cannot contain it. */
  lemma {:induction false} MissingFirstLetter(s: string, sub: string)
    requires sub != [] && sub[0] !in s
    ensures !Contains(s, sub)
    decreases |s|
  {
    if |s| > 0 {
      assert s[0] != sub[0];
      MissingFirstLetter(s[1..], sub);
    }
  }

  /**
   * Proof step for WelcomeUnmarked: the greeting has no capital T, the
   * first letter of the marker (checked one literal piece at a time).
   */
  lemma HelloLacksT(text: string)
    requires text == Hello
    ensures 'T' !in text
  {
    assert 'T' !in Hello1;
    assert 'T' !in Hello2;
    assert 'T' !in Hello3;
  }

  /** Proof step for WelcomeUnmarked: nor has the offer. */
  lemma OfferLacksT(text: string)
    requires text == Offer
    ensures 'T' !in text
  {
    assert 'T' !in Offer1;
    assert 'T' !in Offer2;
    assert 'T' !in Offer3;
    assert 'T' !in Offer4;
    assert 'T' !in Offer5;
    assert 'T' !in Offer6;
  }

  /** Neither welcome text carries the navigation marker. */
  lemma WelcomeUnmarked()
    ensures !Contains(Hello, NavigationMarker) && !Contains(Offer, NavigationMarker)
  {
    HelloLacksT(Hello);
    OfferLacksT(Offer);
    MissingFirstLetter(Hello, NavigationMarker);
    MissingFirstLetter(Offer, NavigationMarker);
  }

  /** Two unread bot messages on their own show a badge of 2. */
  lemma TwoUnread(first: Message, second: Message)
    requires CountsAsUnread(first) && CountsAsUnread(second)
    ensures Badge([first, second]) == 2
  {
    BadgeAppend([], first);
    BadgeAppend([first], second);
    assert [first] + [second] == [first, second];
  }

  /** The welcome messages count as two unread messages. */
  lemma WelcomeBadge()
    ensures Badge(Welcome) == 2
  {
    WelcomeUnmarked();
    TwoUnread(Welcome[0], Welcome[1]);
  }

  /** The chat window's state. */
  class Chat {
    var messages: seq<Message>
    var input: string
    var isOpen: bool

    constructor ()
      ensures messages == [] && input == "" && !isOpen
    {
      messages := [];
      input := "";
      isOpen := false;
    }

    /** The mount effect: installs the welcome only into an empty log. */
    method Greet()
      modifies this
      ensures old(messages) == [] ==> messages == Welcome
      ensures old(messages) != [] ==> messages == old(messages)
      ensures old(messages) == [] ==> Badge(messages) == 2
      ensures old(messages) == [] && !isOpen ==> BadgeShown(messages, isOpen)
      ensures input == old(input) && isOpen == old(isOpen)
    {
      if |messages| == 0 {
        WelcomeBadge();
        messages := Welcome;
      }
    }

    /** Typing in the input box. */
    method Type(text: string)
      modifies this
      ensures input == text && messages == old(messages) && isOpen == old(isOpen)
    {
      input := text;
    }

    /** The chat button: toggles the window. */
    method Toggle()
      modifies this
      ensures isOpen == !old(isOpen) && messages == old(messages) && input == old(input)
      ensures old(isOpen) ==> (BadgeShown(messages, isOpen) <==> messages != [])
      ensures !old(isOpen) ==> !BadgeShown(messages, isOpen)
    {
      isOpen := !isOpen;
    }

    /**
     * `handleSendMessage`: blank input is ignored; otherwise the raw input
     * is posted as a user message, the box is cleared, and the lower-cased
     * input is handed back for the reply.
     */
    method SendMessage(id: string) returns (pending: Option<string>)
      modifies this
      ensures IsBlank(old(input)) ==> pending == None && messages == old(messages) && input == old(input)
      ensures !IsBlank(old(input)) ==>
                && messages == old(messages) + [UserMessage(id, old(input))]
                && input == ""
                && pending == Some(Lower(old(input)))
      ensures isOpen == old(isOpen)
    {
      if IsBlank(input) {
        return None;
      }
      var text := input;
      messages := messages + [UserMessage(id, text)];
      input := "";
      pending := Some(Lower(text));
    }

    /** `handleSuggestionClick`: posts the suggestion as the user's message. */
    method SuggestionClick(suggestion: string, id: string) returns (pending: string)
      modifies this
      ensures messages == old(messages) + [UserMessage(id, suggestion)]
      ensures pending == Lower(suggestion)
      ensures input == old(input) && isOpen == old(isOpen)
    {
      messages := messages + [UserMessage(id, suggestion)];
      pending := Lower(suggestion);
    }

    /** The timer callback of a send: posts the bot's answer to `text`. */
    method Respond(text: string, id: string, draws: Draws)
      requires draws.pick < 5
      modifies this
      ensures messages == old(messages) + [GenerateResponse(text, id, draws)]
      ensures input == old(input) && isOpen == old(isOpen)
    {
      messages := messages + [GenerateResponse(text, id, draws)];
    }

    /** `navigateTo(path)`: posts the navigation notice. */
    method NavigateTo(path: string, id: string)
      modifies this
      ensures messages == old(messages) + [NavigationNotice(id, path)]
      ensures Badge(messages) == Badge(old(messages))
      ensures input == old(input) && isOpen == old(isOpen)
    {
      NavigationKeepsBadge(messages, id, path);
      messages := messages + [NavigationNotice(id, path)];
    }
  }
}

=== FILE: collections.dfy ===
/**
 * Sequence operations shared by the list routes and the guest search:
 * `Array.filter` and a sort under a total preorder (a MongoDB `.sort` on one
 * key).  The sort is an insertion sort; its contract promises only what a
 * database sort promises -- a sorted permutation -- and nothing about the
 * relative order of records with equal keys.
 */
module Collections {

  /** `sub` is `s` with some elements left out, the rest kept in order. */
  predicate IsSubsequence<T(==)>(sub: seq<T>, s: seq<T>)
    decreases |s|
  {
    sub == [] || (s != [] && ((sub[0] == s[0] && IsSubsequence(sub[1..], s[1..])) || IsSubsequence(sub, s[1..])))
  }

  /** `s.filter(keep)`. */
  function Filter<T(==,!new)>(s: seq<T>, keep: T -> bool): (r: seq<T>)
    ensures IsSubsequence(r, s)
    ensures forall x :: x in r <==> x in s && keep(x)
  {
    if s == [] then []
    else
      var rest := Filter(s[1..], keep);
      assert s == [s[0]] + s[1..];
      if keep(s[0]) then [s[0]] + rest else rest
  }

  /** The filter keeps every copy of a kept element and no copy of the others. */
  lemma {:induction false} FilterCounts<T(!new)>(s: seq<T>, keep: T -> bool)
    ensures forall x :: multiset(Filter(s, keep))[x] == if keep(x) then multiset(s)[x] else 0
  {
    if s != [] {
      FilterCounts(s[1..], keep);
      assert s == [s[0]] + s[1..];
    }
  }

  /** A filter that keeps every element returns its input. */
  lemma {:induction false} FilterKeepsAll<T(!new)>(s: seq<T>, keep: T -> bool)
    requires forall i :: 0 <= i < |s| ==> keep(s[i])
    ensures Filter(s, keep) == s
  {
    if s != [] {
      FilterKeepsAll(s[1..], keep);
    }
  }

  /** Filters that agree on every element agree on every list. */
  lemma {:induction false} FilterSameTest<T(!new)>(s: seq<T>, keep: T -> bool, test: T -> bool)
    requires forall x :: keep(x) == test(x)
    ensures Filter(s, keep) == Filter(s, test)
    decreases |s|
  {
    if s != [] {
      FilterSameTest(s[1..], keep, test);
    }
  }

  /** Filtering a list with one more element at the end. */
  lemma {:induction false} FilterAppend<T(!new)>(s: seq<T>, x: T, keep: T -> bool)
    ensures Filter(s + [x], keep) == Filter(s, keep) + (if keep(x) then [x] else [])
    decreases |s|
  {
    if s == [] {
      assert [] + [x] == [x];
    } else {
      assert (s + [x])[1..] == s[1..] + [x];
      FilterAppend(s[1..], x, keep);
    }
  }

  /** `le` is total and transitive: a key order that may have ties. */
  ghost predicate TotalPreorder<T(!new)>(le: (T, T) -> bool) {
    && (forall a, b :: le(a, b) || le(b, a))
    && (forall a, b, c :: le(a, b) && le(b, c) ==> le(a, c))
  }

  predicate Sorted<T>(s: seq<T>, le: (T, T) -> bool) {
    forall i, j :: 0 <= i < j < |s| ==> le(s[i], s[j])
  }

  /** Inserts `x` before the first element it may precede. */
  function Insert<T>(x: T, s: seq<T>, le: (T, T) -> bool): (r: seq<T>)
    ensures multiset(r) == multiset(s) + multiset{x}
  {
    if s == [] then [x]
    else if le(x, s[0]) then [x] + s
    else
      assert s == [s[0]] + s[1..];
      [s[0]] + Insert(x, s[1..], le)
  }

  lemma {:induction false} InsertSorted<T(!new)>(x: T, s: seq<T>, le: (T, T) -> bool)
    requires TotalPreorder(le) && Sorted(s, le)
    ensures Sorted(Insert(x, s, le), le)
  {
    if s != [] && !le(x, s[0]) {
      var tail := s[1..];
      InsertSorted(x, tail, le);
      var r := Insert(x, tail, le);
      forall k | 0 <= k < |r|
        ensures le(s[0], r[k])
      {
        assert r[k] in multiset(r);
        if r[k] != x {
          assert r[k] in multiset(tail);
          var j :| 0 <= j < |tail| && tail[j] == r[k];
          assert s[j + 1] == r[k];
        }
      }
    }
  }

  /** The records of `s` ordered by `le`. */
  function SortBy<T>(s: seq<T>, le: (T, T) -> bool): (r: seq<T>)
    ensures multiset(r) == multiset(s)
  {
    if s == [] then []
    else
      assert s == [s[0]] + s[1..];
      Insert(s[0], SortBy(s[1..], le), le)
  }

  lemma {:induction false} SortBySorted<T(!new)>(s: seq<T>, le: (T, T) -> bool)
    requires TotalPreorder(le)
    ensures Sorted(SortBy(s, le), le)
  {
    if s != [] {
      SortBySorted(s[1..], le);
      InsertSorted(s[0], SortBy(s[1..], le), le);
    }
  }
}

=== FILE: countdown.dfy ===
/**
 * The wedding countdown: the time left until the target date, split into
 * whole days, hours, minutes and seconds.  The clock is outside the model:
 * the input is the difference between the target and now, in whole
 * milliseconds.
 */
module Countdown {

  const MsPerSecond: int := 1000
  const MsPerMinute: int := 60 * MsPerSecond
  const MsPerHour: int := 60 * MsPerMinute
  const MsPerDay: int := 24 * MsPerHour

  datatype TimeLeft = TimeLeft(days: int, hours: int, minutes: int, seconds: int)

  /** What the widget shows before its first computation. */
  const Initial := TimeLeft(0, 0, 0, 0)

  /** The span a reading stands for, in milliseconds. */
  function Milliseconds(t: TimeLeft): int {
    t.days * MsPerDay + t.hours * MsPerHour + t.minutes * MsPerMinute + t.seconds * MsPerSecond
  }

  /** Each unit below its carry-over point. */
  predicate InRange(t: TimeLeft) {
    t.days >= 0 && 0 <= t.hours < 24 && 0 <= t.minutes < 60 && 0 <= t.seconds < 60
  }

  /** Whole seconds of a non-negative span, split into units. */
  lemma SplitSeconds(s: int)
    requires s >= 0
    ensures s == (s / 86400) * 86400 + ((s / 3600) % 24) * 3600 + ((s / 60) % 60) * 60 + s % 60
  {
    var m, h := s / 60, s / 3600;
    assert h == m / 60;
    assert s / 86400 == h / 24;
  }

  /** Whole minutes, hours and days counted from whole seconds or from milliseconds agree. */
  lemma SecondsThenUnits(d: int)
    requires d >= 0
    ensures (d / 1000) / 60 == d / MsPerMinute
    ensures (d / 1000) / 3600 == d / MsPerHour
    ensures (d / 1000) / 86400 == d / MsPerDay
  {
    var s := d / 1000;
    assert 1000 * s <= d < 1000 * s + 1000;
    assert 60 * (s / 60) <= s < 60 * (s / 60) + 60;
    assert 3600 * (s / 3600) <= s < 3600 * (s / 3600) + 3600;
    assert 86400 * (s / 86400) <= s < 86400 * (s / 86400) + 86400;
  }

  /**
   * `calculateTimeLeft`: nothing left (all zeros) once the target has
   * passed; otherwise the whole days, then hours, minutes and seconds
   * below a day, which together fall short of the difference by less than
   * a second.
   */
  function CalculateTimeLeft(difference: int): (r: TimeLeft)
    ensures difference <= 0 ==> r == Initial
    ensures InRange(r)
    ensures difference > 0 ==> r.days == difference / MsPerDay
    ensures difference > 0 ==> Milliseconds(r) <= difference < Milliseconds(r) + MsPerSecond
  {
    if difference > 0 then
      var r := TimeLeft(difference / MsPerDay, (difference / MsPerHour) % 24,
                        (difference / MsPerMinute) % 60, (difference / MsPerSecond) % 60);
      var s := difference / MsPerSecond;
      SecondsThenUnits(difference);
      SplitSeconds(s);
      r
    else
      Initial
  }

  /** The whole seconds a reading stands for. */
  function Seconds(t: TimeLeft): int {
    t.days * 86400 + t.hours * 3600 + t.minutes * 60 + t.seconds
  }

  /** An in-range reading is recovered from its whole seconds unit by unit. */
  lemma UnitsOfSeconds(t: TimeLeft)
    requires InRange(t)
    ensures Seconds(t) / 86400 == t.days
    ensures (Seconds(t) / 3600) % 24 == t.hours
    ensures (Seconds(t) / 60) % 60 == t.minutes
    ensures Seconds(t) % 60 == t.seconds
  {
    var s := Seconds(t);
    var m := t.days * 1440 + t.hours * 60 + t.minutes;
    var h := t.days * 24 + t.hours;
    assert s == 60 * m + t.seconds;
    assert s / 60 == m;
    assert s == 3600 * h + (t.minutes * 60 + t.seconds);
    assert s / 3600 == h;
    assert s == 86400 * t.days + (t.hours * 3600 + t.minutes * 60 + t.seconds);
    assert h == 24 * t.days + t.hours;
    assert m == 60 * h + t.minutes;
  }

  /**
   * The reading is the only in-range one within a second of the
   * difference: any other split that meets both bounds is the same.
   */
  lemma ReadingIsUnique(difference: int, t: TimeLeft)
    requires difference > 0 && InRange(t)
    requires Milliseconds(t) <= difference < Milliseconds(t) + MsPerSecond
    ensures t == CalculateTimeLeft(difference)
  {
    assert Milliseconds(t) == 1000 * Seconds(t);
    assert difference / 1000 == Seconds(t);
    UnitsOfSeconds(t);
    SecondsThenUnits(difference);
  }
}

=== FILE: guest_list.dfy ===
/**
 * The dashboard's guest table: the search box that narrows the list, the
 * coloured status badge and its label, and the table-number cell.
 */
module GuestList {
  import opened Wrappers
  import opened Text
  import opened Collections

  datatype Status = Confirmed | Pending | Declined

  /** A guest row as the table component holds it; `table` is `null` when unassigned. */
  datatype Guest = Guest(id: int, name: string, email: string, status: Status, plusOne: bool, table: Option<int>)

  /** The status as the record stores it. */
  function StatusName(s: Status): string {
    match s
    case Confirmed => "confirmed"
    case Pending => "pending"
    case Declined => "declined"
  }

  // ----- Search -----

  /** The search predicate: the lower-cased query occurs in the lower-cased name or email. */
  predicate Matches(g: Guest, query: string) {
    Contains(Lower(g.name), Lower(query)) || Contains(Lower(g.email), Lower(query))
  }

  /**
   * `filteredGuests`: the guests the query matches, in table order.  An
   * empty query keeps the whole list.
   */
  function SearchFilter(guests: seq<Guest>, query: string): (r: seq<Guest>)
    ensures IsSubsequence(r, guests)
    ensures forall g :: g in r <==> g in guests && Matches(g, query)
    ensures query == "" ==> r == guests
    ensures forall g :: multiset(r)[g] == if Matches(g, query) then multiset(guests)[g] else 0
  {
    var keep := (g: Guest) => Matches(g, query);
    FilterCounts(guests, keep);
    if query == "" then
      forall g: Guest ensures keep(g) {
        ContainsEmpty(Lower(g.name));
      }
      FilterKeepsAll(guests, keep);
      Filter(guests, keep)
    else
      Filter(guests, keep)
  }

  lemma LowerCharIdempotent(c: char)
    ensures LowerChar(LowerChar(c)) == LowerChar(c)
  {
  }

  lemma LowerIdempotent(s: string)
    ensures Lower(Lower(s)) == Lower(s)
  {
    forall i | 0 <= i < |s|
      ensures Lower(Lower(s))[i] == Lower(s)[i]
    {
      LowerCharIdempotent(s[i]);
    }
  }

  /** The search ignores letter case in the query: "ROSSI" finds what "rossi" finds. */
  lemma SearchIgnoresQueryCase(guests: seq<Guest>, query: string)
    ensures SearchFilter(guests, Lower(query)) == SearchFilter(guests, query)
  {
    LowerIdempotent(query);
    FilterSameTest(guests, (g: Guest) => Matches(g, Lower(query)), (g: Guest) => Matches(g, query));
  }

  // ----- Status badge -----

  /** Tailwind classes for a badge tinted `hue`. */
  function Tint(hue: string): (r: string)
    ensures |r| > 3 + |hue| && r[..3] == "bg-" && r[3..3 + |hue|] == hue
  {
    var r := "bg-" + hue + "-500/10 text-" + hue + "-500 hover:bg-" + hue + "-500/20";
    assert r[3..3 + |hue|] == hue;
    r
  }

  function Hue(s: Status): string {
    match s
    case Confirmed => "green"
    case Pending => "amber"
    case Declined => "red"
  }

  /** `getStatusColor`: green, amber or red badge classes. */
  function StatusColor(s: Status): string {
    Tint(Hue(s))
  }

  /** Every status has its own colour. */
  lemma StatusColorsDistinct(a: Status, b: Status)
    ensures StatusColor(a) == StatusColor(b) <==> a == b
  {
    var ca, cb := StatusColor(a), StatusColor(b);
    assert ca[3] == Hue(a)[0] && cb[3] == Hue(b)[0];
  }

  /** `s.charAt(0).toUpperCase() + s.slice(1)`. */
  function Capitalize(s: string): (r: string)
    ensures |r| == |s|
    ensures s != [] ==> r[0] == UpperChar(s[0]) && r[1..] == s[1..]
  {
    if s == [] then [] else [UpperChar(s[0])] + s[1..]
  }

  /** No upper-case ASCII letter in `s`. */
  predicate AllLower(s: string) {
    forall i :: 0 <= i < |s| ==> !('A' <= s[i] <= 'Z')
  }

  /** Capitalizing a lower-case word loses nothing: lower-casing it gives the word back. */
  lemma LowerUndoesCapitalize(s: string)
    requires AllLower(s)
    ensures Lower(Capitalize(s)) == s
  {
    var r := Lower(Capitalize(s));
    forall i | 0 <= i < |s|
      ensures r[i] == s[i]
    {
      if i == 0 {
        assert LowerChar(UpperChar(s[0])) == s[0];
      } else {
        assert Capitalize(s)[i] == s[i];
      }
    }
  }

  /** The badge text: the status with its first letter upper-cased. */
  function StatusLabel(s: Status): (r: string)
    ensures Lower(r) == StatusName(s)
    ensures r[0] == UpperChar(StatusName(s)[0]) && r[1..] == StatusName(s)[1..]
  {
    LowerUndoesCapitalize(StatusName(s));
    Capitalize(StatusName(s))
  }

  lemma PendingLabel()
    ensures StatusLabel(Pending) == "Pending"
  {
    var r := StatusLabel(Pending);
    assert r == ['P'] + "ending";
  }

  // ----- Table cell -----

  function Digit(d: nat): char
    requires d < 10
  {
    "0123456789"[d]
  }

  function DigitValue(c: char): nat {
    if '0' <= c <= '9' then c as int - '0' as int else 0
  }

  /** Decimal digits of a natural number, no leading zero. */
  function NatToString(n: nat): (r: string)
    ensures |r| >= 1
    ensures forall i :: 0 <= i < |r| ==> '0' <= r[i] <= '9'
    ensures |r| > 1 ==> r[0] != '0'
    decreases n
  {
    if n < 10 then [Digit(n)] else NatToString(n / 10) + [Digit(n % 10)]
  }

  /** The number a string of decimal digits denotes. */
  function ParseNat(s: string): nat
    decreases |s|
  {
    if s == [] then 0 else 10 * ParseNat(s[..|s| - 1]) + DigitValue(s[|s| - 1])
  }

  /** Reading back the digits of `n` gives `n`. */
  lemma {:induction false} NatToStringRoundTrip(n: nat)
    ensures ParseNat(NatToString(n)) == n
    decreases n
  {
    var r := NatToString(n);
    if n < 10 {
      assert r[..|r| - 1] == [];
    } else {
      NatToStringRoundTrip(n / 10);
      assert r[..|r| - 1] == NatToString(n / 10);
    }
  }

  /** `String(n)` for an integer: a minus sign before the digits of a negative number. */
  function IntToString(n: int): (r: string)
    ensures |r| >= 1 && (r[0] == '-' <==> n < 0)
    ensures n >= 0 ==> ParseNat(r) == n
    ensures n < 0 ==> ParseNat(r[1..]) == -n
    ensures var digits := if n < 0 then r[1..] else r;
            && |digits| >= 1 && (|digits| > 1 ==> digits[0] != '0')
            && forall i :: 0 <= i < |digits| ==> '0' <= digits[i] <= '9'
  {
    NatToStringRoundTrip(if n < 0 then -n else n);
    if n < 0 then "-" + NatToString(-n) else NatToString(n)
  }

  /**
   * `guest.table || "-"`: the table number, or "-" when there is none --
   * and also for table 0, which JavaScript treats as false.
   */
  function TableCell(table: Option<int>): (r: string)
    ensures r == "-" <==> table.None? || table == Some(0)
    ensures table.Some? && table.value != 0 ==> r == IntToString(table.value)
  {
    match table
    case None => "-"
    case Some(n) =>
      if n == 0 then "-"
      else
        var s := IntToString(n);
        assert s != "-" by {
          if n < 0 {
            assert |s| >= 2;
          }
        }
        s
  }
}

=== FILE: landing_page.dfy ===
/**
 * The landing page's feature cards, each linking to a page named after the
 * feature: the title lower-cased, with every run of whitespace turned into
 * one hyphen.
 */
module LandingPage {
  import opened Text

  /** The titles of the six feature cards, in display order. */
  const FeatureTitles: seq<string> := [
    "Digital Wedding Album", "Guest Photo Sharing", "Guest Management",
    "Wedding Day Timeline", "Honeymoon Planning", "Social Sharing"
  ]

  predicate NoWhitespace(s: string) {
    forall i :: 0 <= i < |s| ==> !IsWhitespace(s[i])
  }

  predicate AllWhitespace(s: string) {
    forall i :: 0 <= i < |s| ==> IsWhitespace(s[i])
  }

  /** `s` without its leading whitespace. */
  function SkipWhitespace(s: string): (r: string)
    ensures |r| <= |s|
    ensures r == [] || !IsWhitespace(r[0])
  {
    if s != [] && IsWhitespace(s[0]) then SkipWhitespace(s[1..]) else s
  }

  /** `s.replace(/\s+/g, "-")`: each maximal run of whitespace becomes one hyphen. */
  function Dashify(s: string): (r: string)
    ensures NoWhitespace(r)
    ensures |r| <= |s|
    decreases |s|
  {
    if s == [] then []
    else if IsWhitespace(s[0]) then "-" + Dashify(SkipWhitespace(s[1..]))
    else [s[0]] + Dashify(s[1..])
  }

  /** Text without whitespace passes through unchanged. */
  lemma {:induction false} DashifyKeepsWord(word: string, rest: string)
    requires NoWhitespace(word)
    ensures Dashify(word + rest) == word + Dashify(rest)
    decreases |word|
  {
    if word != [] {
      assert (word + rest)[1..] == word[1..] + rest;
      DashifyKeepsWord(word[1..], rest);
    } else {
      assert word + rest == rest;
    }
  }

  lemma {:induction false} SkipRun(run: string, rest: string)
    requires AllWhitespace(run)
    requires rest == [] || !IsWhitespace(rest[0])
    ensures SkipWhitespace(run + rest) == rest
    decreases |run|
  {
    if run != [] {
      assert (run + rest)[1..] == run[1..] + rest;
      SkipRun(run[1..], rest);
    } else {
      assert run + rest == rest;
    }
  }

  /** A run of whitespace before the rest becomes one hyphen. */
  lemma DashifyRun(run: string, rest: string)
    requires run != [] && AllWhitespace(run)
    requires rest == [] || !IsWhitespace(rest[0])
    ensures Dashify(run + rest) == "-" + Dashify(rest)
  {
    var s := run + rest;
    assert IsWhitespace(s[0]);
    assert s[1..] == run[1..] + rest;
    SkipRun(run[1..], rest);
  }

  /**
   * A maximal run of whitespace between a word and the rest becomes
   * exactly one hyphen, whatever its length.
   */
  lemma RunBecomesOneHyphen(word: string, run: string, rest: string)
    requires NoWhitespace(word) && run != [] && AllWhitespace(run)
    requires rest == [] || !IsWhitespace(rest[0])
    ensures Dashify(word + run + rest) == word + "-" + Dashify(rest)
  {
    DashifyKeepsWord(word, run + rest);
    assert word + run + rest == word + (run + rest);
    DashifyRun(run, rest);
  }

  /** The page slug of a feature title. */
  function Slug(title: string): (r: string)
    ensures NoWhitespace(r)
  {
    Dashify(Lower(title))
  }

  /** Lower-casing works character by character. */
  lemma LowerConcat(a: string, b: string)
    ensures Lower(a + b) == Lower(a) + Lower(b)
  {
    var l, r := Lower(a + b), Lower(a) + Lower(b);
    assert |l| == |r|;
    forall i | 0 <= i < |l|
      ensures l[i] == r[i]
    {
      if i < |a| {
        assert (a + b)[i] == a[i];
      } else {
        assert (a + b)[i] == b[i - |a|];
      }
    }
  }

  /** `/features/<slug>`: the link of a feature card. */
  function FeatureLink(title: string): (r: string)
    ensures StartsWith(r, "/features/") && NoWhitespace(r[10..])
    ensures r[10..] == Slug(title)
  {
    var r := "/features/" + Slug(title);
    assert r[10..] == Slug(title);
    r
  }

  /** A capitalised word lower-cases to its lower-case form. */
  lemma LowerCapitalised(word: string)
    requires word != [] && 'A' <= word[0] <= 'Z'
    requires forall i :: 1 <= i < |word| ==> !('A' <= word[i] <= 'Z')
    ensures Lower(word) == [LowerChar(word[0])] + word[1..]
  {
  }

  // Proof steps for AlbumSlug: each fact about the literal title is a lemma
  // of its own, so that no single proof has to unfold all three words.

  /** Proof step for AlbumSlug: "Digital" lower-cases to "digital". */
  lemma DigitalLowered(word: string)
    requires word == "Digital"
    ensures Lower(word) == "digital"
  {
    LowerCapitalised(word);
  }

  /** Proof step for AlbumSlug: "Wedding" lower-cases to "wedding". */
  lemma WeddingLowered(word: string)
    requires word == "Wedding"
    ensures Lower(word) == "wedding"
  {
    LowerCapitalised(word);
  }

  /** Proof step for AlbumSlug: "Album" lower-cases to "album". */
  lemma AlbumLowered(word: string)
    requires word == "Album"
    ensures Lower(word) == "album"
  {
    LowerCapitalised(word);
  }

  /** Lower-casing a title of three words lower-cases each word. */
  lemma LowerThreeWords(a: string, b: string, c: string)
    ensures Lower(a + " " + b + " " + c) == Lower(a) + " " + Lower(b) + " " + Lower(c)
  {
    assert Lower(" ") == " ";
    LowerConcat(a, " ");
    LowerConcat(a + " ", b);
    LowerConcat(a + " " + b, " ");
    LowerConcat(a + " " + b + " ", c);
  }

  /** A single space between two words becomes a hyphen. */
  lemma DashTwoWords(b: string, c: string)
    requires NoWhitespace(b) && NoWhitespace(c) && c != []
    ensures Dashify(b + " " + c) == b + "-" + c
  {
    assert AllWhitespace(" ");
    DashifyKeepsWord(c, "");
    assert c + "" == c;
    RunBecomesOneHyphen(b, " ", c);
  }

  /** Proof step for DashThreeWords: regrouping a concatenation. */
  lemma AppendAssoc(x: string, y: string, z: string)
    ensures x + (y + z) == x + y + z
  {
  }

  /** Single spaces between three words become hyphens. */
  lemma DashThreeWords(a: string, b: string, c: string)
    requires NoWhitespace(a) && NoWhitespace(b) && NoWhitespace(c)
    requires b != [] && c != []
    ensures Dashify(a + " " + b + " " + c) == a + "-" + b + "-" + c
  {
    assert AllWhitespace(" ");
    var bc := b + " " + c;
    assert bc[0] == b[0];
    RunBecomesOneHyphen(a, " ", bc);
    DashTwoWords(b, c);
    AppendAssoc(a + " ", b + " ", c);
    AppendAssoc(a + " ", b, " ");
    AppendAssoc(a + "-", b + "-", c);
    AppendAssoc(a + "-", b, "-");
  }

  /** Proof step for AlbumSlug: the three lower-cased words have no whitespace. */
  lemma AlbumWordsPlain()
    ensures NoWhitespace("digital") && NoWhitespace("wedding") && NoWhitespace("album")
  {
  }

  /** Proof step for AlbumSlug: the hyphenated words spell the slug. */
  lemma AlbumWordsJoined()
    ensures "digital" + "-" + "wedding" + "-" + "album" == "digital-wedding-album"
  {
  }

  /** The first card's slug: "Digital Wedding Album" becomes "digital-wedding-album". */
  lemma AlbumSlug()
    ensures Slug(FeatureTitles[0]) == "digital-wedding-album"
  {
    assert FeatureTitles[0] == "Digital" + " " + "Wedding" + " " + "Album";
    LowerThreeWords("Digital", "Wedding", "Album");
    DigitalLowered("Digital");
    WeddingLowered("Wedding");
    AlbumLowered("Album");
    AlbumWordsPlain();
    DashThreeWords("digital", "wedding", "album");
    AlbumWordsJoined();
  }
}

=== FILE: server.dfy ===
/**
 * The REST backend: user registration and login, the bearer-token gate in
 * front of every resource route, and the create/list/update handlers of
 * albums, photos, guests, timeline events and honeymoon entries, each record
 * owned by the user who created it.
 *
 * The document store is the class `Store`; every collection is a sequence
 * in insertion order and every identifier is drawn from one counter (the
 * stand-in for MongoDB object ids).  Password hashing, token signing and
 * verification, the clock and the random file identifier are parameters.
 */
module Server {
  import opened Wrappers
  import opened Text
  import opened Collections
  import Upload

  type Id = nat

  // ---------------------------------------------------------------- crypto

  /** A salted password digest as bcrypt stores it: the salt travels with the digest. */
  datatype PasswordHash = PasswordHash(salt: string, digest: string)

  /** The key-derivation function behind the hash: (password, salt) to digest. */
  type Kdf = (string, string) -> string

  /** `bcrypt.compare(password, stored)`. */
  predicate Matches(kdf: Kdf, password: string, stored: PasswordHash) {
    kdf(password, stored.salt) == stored.digest
  }

  /** `bcrypt.hash(password, salt)`: the stored hash accepts the password it was made from. */
  function HashPassword(kdf: Kdf, password: string, salt: string): (h: PasswordHash)
    ensures Matches(kdf, password, h)
    ensures h.salt == salt
  {
    PasswordHash(salt, kdf(password, salt))
  }

  /** What `jwt.verify` extracts from a well-signed token; `expired` is past its 7-day lifetime. */
  datatype Claims = Claims(id: Id, expired: bool)

  /** `jwt.verify` with the server secret: None for a malformed or badly signed token. */
  type Verifier = string -> Option<Claims>

  /** `jwt.sign({ id }, secret, { expiresIn: "7d" })`. */
  type Signer = Id -> string

  // --------------------------------------------------------------- records

  datatype User = User(id: Id, firstName: string, lastName: string, email: string,
                       password: PasswordHash, weddingDate: int, createdAt: int)

  /** The user as the auth routes return it: everything but the password hash. */
  datatype UserSummary = UserSummary(id: Id, firstName: string, lastName: string, email: string, weddingDate: int)

  datatype Session = Session(token: string, user: UserSummary)

  datatype Album = Album(id: Id, title: string, description: Option<string>, coverImage: Option<string>,
                         userId: Id, createdAt: int)

  datatype Photo = Photo(id: Id, title: Option<string>, description: Option<string>, imageUrl: string,
                         albumId: Id, userId: Id, guestId: Option<Id>, likes: int, createdAt: int)

  /** `status` is a string: the update route stores it without checking the enum. */
  datatype Guest = Guest(id: Id, name: string, email: string, status: string, plusOne: bool,
                         table: Option<int>, userId: Id, createdAt: int)

  datatype TimelineEvent = TimelineEvent(id: Id, time: string, title: string, description: Option<string>,
                                         location: Option<string>, category: string, userId: Id, createdAt: int)

  datatype Honeymoon = Honeymoon(id: Id, destination: string, startDate: int, endDate: int,
                                 description: Option<string>, imageUrl: Option<string>, userId: Id, createdAt: int)

  // --------------------------------------------------------- request bodies

  /** Body fields; None is a field the client left out. Dates are milliseconds. */
  datatype RegisterBody = RegisterBody(firstName: Option<string>, lastName: Option<string>, email: string,
                                       password: Option<string>, weddingDate: Option<int>)
  datatype AlbumBody = AlbumBody(title: Option<string>, description: Option<string>)
  datatype PhotoBody = PhotoBody(title: Option<string>, description: Option<string>, albumId: Option<Id>)
  datatype GuestBody = GuestBody(name: Option<string>, email: Option<string>, status: Option<string>,
                                 plusOne: Option<bool>, table: Option<int>)
  /**
   * The body of a guest update.  `table` is three-way: None when left out,
   * `Some(None)` for an explicit `null` (which clears the table), and
   * `Some(Some(n))` for a number.
   */
  datatype GuestUpdate = GuestUpdate(name: Option<string>, email: Option<string>, status: Option<string>,
                                     plusOne: Option<bool>, table: Option<Option<int>>)
  datatype EventBody = EventBody(time: Option<string>, title: Option<string>, description: Option<string>,
                                 location: Option<string>, category: Option<string>)
  datatype HoneymoonBody = HoneymoonBody(destination: Option<string>, startDate: Option<int>,
                                         endDate: Option<int>, description: Option<string>)

  // ---------------------------------------------------------------- replies

  datatype HttpError = HttpError(status: nat, message: string)

  const Unauthenticated := HttpError(401, "Please authenticate.")
  const UserExists := HttpError(400, "User already exists")
  const InvalidCredentials := HttpError(400, "Invalid credentials")
  const NoImage := HttpError(400, "Please upload an image")
  const GuestNotFound := HttpError(404, "Guest not found")
  /** Any failed save (a missing required field, a value outside an enum). */
  const ServerError := HttpError(500, "Server error")

  /** A rejected upload reaches the framework's default error handler. */
  function UploadError(e: Upload.Rejection): HttpError {
    HttpError(500, Upload.RejectionMessage(e))
  }

  // ------------------------------------------------------- schema defaults

  /** A `required: true` string passes validation when present and non-empty. */
  predicate Given(field: Option<string>) {
    field.Some? && field.value != ""
  }

  predicate IsGuestStatus(s: string) {
    s == "confirmed" || s == "pending" || s == "declined"
  }

  predicate IsCategory(c: string) {
    c == "ceremony" || c == "reception" || c == "preparation" || c == "other"
  }

  /** The stored status of a new guest: the given one, else "pending". */
  function GuestStatusOf(status: Option<string>): (s: string)
    ensures status.None? ==> s == "pending"
    ensures status.Some? ==> s == status.value
  {
    if status.Some? then status.value else "pending"
  }

  /** The stored category of a new event: the given one, else "other". */
  function CategoryOf(category: Option<string>): (c: string)
    ensures category.None? ==> c == "other"
    ensures category.Some? ==> c == category.value
  {
    if category.Some? then category.value else "other"
  }

  /** The fields the user schema requires (the hash is always present). */
  predicate CompleteRegistration(b: RegisterBody) {
    Given(b.firstName) && Given(b.lastName) && b.email != "" && b.weddingDate.Some?
  }

  predicate ValidAlbumBody(b: AlbumBody) { Given(b.title) }

  predicate ValidGuestBody(b: GuestBody) {
    Given(b.name) && Given(b.email) && (b.status.None? || IsGuestStatus(b.status.value))
  }

  predicate ValidEventBody(b: EventBody) {
    Given(b.time) && Given(b.title) && (b.category.None? || IsCategory(b.category.value))
  }

  predicate ValidHoneymoonBody(b: HoneymoonBody) {
    Given(b.destination) && b.startDate.Some? && b.endDate.Some?
  }

  // ----------------------------------------------------------- user lookup

  /** `User.findOne({ email })`: the first user with exactly this email. */
  function FindUserByEmail(users: seq<User>, email: string): (r: Option<User>)
    ensures r.Some? ==> r.value in users && r.value.email == email
    ensures r.None? <==> forall i :: 0 <= i < |users| ==> users[i].email != email
  {
    if users == [] then None
    else if users[0].email == email then Some(users[0])
    else
      var r := FindUserByEmail(users[1..], email);
      assert forall i :: 1 <= i < |users| ==> users[i] == users[1..][i - 1];
      r
  }

  /** `User.findById(id)`. */
  function FindUserById(users: seq<User>, id: Id): (r: Option<User>)
    ensures r.Some? ==> r.value in users && r.value.id == id
    ensures r.None? <==> forall i :: 0 <= i < |users| ==> users[i].id != id
  {
    if users == [] then None
    else if users[0].id == id then Some(users[0])
    else
      var r := FindUserById(users[1..], id);
      assert forall i :: 1 <= i < |users| ==> users[i] == users[1..][i - 1];
      r
  }

  /**
   * The user as the auth routes send it back: the account it names, with
   * its profile fields and without the password hash.
   */
  function Summary(u: User): (s: UserSummary)
    ensures s.id == u.id && s.email == u.email
    ensures s.firstName == u.firstName && s.lastName == u.lastName && s.weddingDate == u.weddingDate
  {
    UserSummary(u.id, u.firstName, u.lastName, u.email, u.weddingDate)
  }

  /** The reply does not depend on the password hash or the creation time. */
  lemma SummaryHidesHash(u: User, hash: PasswordHash, createdAt: int)
    ensures Summary(u.(password := hash, createdAt := createdAt)) == Summary(u)
  {
  }

  // ------------------------------------------------------------------ login

  /**
   * `POST /api/login`.  An unknown email and a wrong password produce the
   * same error value, so a client cannot tell which check failed.  A body
   * without a password reaches `bcrypt.compare` with `undefined`, which
   * rejects, and the route's `catch` answers 500.
   */
  function Login(users: seq<User>, email: string, password: Option<string>, kdf: Kdf, sign: Signer): (r: Result<Session, HttpError>)
    ensures FindUserByEmail(users, email).None? ==> r == Failure(InvalidCredentials)
    ensures FindUserByEmail(users, email).Some? && password.None? ==> r == Failure(ServerError)
    ensures r.Failure? && password.Some? ==> r.error == InvalidCredentials
    ensures r.Success? <==>
              (var u := FindUserByEmail(users, email); u.Some? && password.Some? && Matches(kdf, password.value, u.value.password))
    ensures r.Success? ==> exists u :: u in users && u.email == email && r.value == Session(sign(u.id), Summary(u))
  {
    match FindUserByEmail(users, email)
    case None => Failure(InvalidCredentials)
    case Some(u) =>
      if password.None? then Failure(ServerError)
      else if !Matches(kdf, password.value, u.password) then Failure(InvalidCredentials)
      else Success(Session(sign(u.id), Summary(u)))
  }

  ghost predicate UniqueEmails(users: seq<User>) {
    forall i, j :: 0 <= i < j < |users| ==> users[i].email != users[j].email
  }

  /** With emails unique, login succeeds exactly for a stored user whose hash accepts the password. */
  lemma LoginSucceedsIffCredentialsMatch(users: seq<User>, u: User, password: string, kdf: Kdf, sign: Signer)
    requires UniqueEmails(users) && u in users
    ensures Login(users, u.email, Some(password), kdf, sign).Success? <==> Matches(kdf, password, u.password)
    ensures Login(users, u.email, Some(password), kdf, sign).Success? ==>
              Login(users, u.email, Some(password), kdf, sign).value == Session(sign(u.id), Summary(u))
  {
    var found := FindUserByEmail(users, u.email);
    var k :| 0 <= k < |users| && users[k] == u;
    var j :| 0 <= j < |users| && users[j] == found.value;
    assert users[j].email == users[k].email;
  }

  // ------------------------------------------------------------ the auth gate

  /** The token the gate verifies: the header with its first "Bearer " removed. */
  function BearerToken(header: string): string {
    RemoveFirst(header, "Bearer ")
  }

  /**
   * The `auth` middleware: a missing header, a token that fails
   * verification or has expired, and a token whose user no longer exists
   * all give the same 401.
   */
  function Authenticate(users: seq<User>, header: Option<string>, verify: Verifier): (r: Result<User, HttpError>)
    ensures r.Failure? ==> r.error == Unauthenticated
    ensures r.Success? <==>
              && header.Some?
              && verify(BearerToken(header.value)).Some?
              && !verify(BearerToken(header.value)).value.expired
              && FindUserById(users, verify(BearerToken(header.value)).value.id).Some?
    ensures r.Success? ==> r.value in users && r.value.id == verify(BearerToken(header.value)).value.id
  {
    if header.None? then Failure(Unauthenticated)
    else
      match verify(BearerToken(header.value))
      case None => Failure(Unauthenticated)
      case Some(claims) =>
        if claims.expired then Failure(Unauthenticated)
        else
          match FindUserById(users, claims.id)
          case None => Failure(Unauthenticated)
          case Some(u) => Success(u)
  }

  lemma {:induction false} BearerTokenOfIssued(token: string)
    ensures BearerToken("Bearer " + token) == token
  {
    var h := "Bearer " + token;
    assert h[..|"Bearer "|] == "Bearer ";
    assert h[|"Bearer "|..] == token;
  }

  ghost predicate UniqueUserIds(users: seq<User>) {
    forall i, j :: 0 <= i < j < |users| ==> users[i].id != users[j].id
  }

  /**
   * A token issued to a stored user and sent back as `Bearer <token>`
   * before it expires authenticates as that user.
   */
  lemma IssuedTokenAuthenticates(users: seq<User>, u: User, token: string, verify: Verifier)
    requires UniqueUserIds(users) && u in users
    requires verify(token) == Some(Claims(u.id, false))
    ensures Authenticate(users, Some("Bearer " + token), verify) == Success(u)
  {
    BearerTokenOfIssued(token);
    var found := FindUserById(users, u.id);
    var k :| 0 <= k < |users| && users[k] == u;
    var j :| 0 <= j < |users| && users[j] == found.value;
    assert users[j].id == users[k].id;
  }

  /** The same token past its lifetime is refused. */
  lemma ExpiredTokenRefused(users: seq<User>, u: User, token: string, verify: Verifier)
    requires verify(token) == Some(Claims(u.id, true))
    ensures Authenticate(users, Some("Bearer " + token), verify) == Failure(Unauthenticated)
  {
    BearerTokenOfIssued(token);
  }

  // ------------------------------------------------------------ list queries

  predicate NewerAlbumFirst(a: Album, b: Album) { a.createdAt >= b.createdAt }
  predicate NewerPhotoFirst(a: Photo, b: Photo) { a.createdAt >= b.createdAt }
  predicate GuestNameOrder(a: Guest, b: Guest) { StrLe(a.name, b.name) }
  predicate EventTimeOrder(a: TimelineEvent, b: TimelineEvent) { StrLe(a.time, b.time) }
  predicate EarlierTripFirst(a: Honeymoon, b: Honeymoon) { a.startDate <= b.startDate }

  predicate OwnsAlbum(owner: Id, a: Album) { a.userId == owner }
  predicate OwnsGuest(owner: Id, g: Guest) { g.userId == owner }
  predicate OwnsEvent(owner: Id, e: TimelineEvent) { e.userId == owner }
  predicate OwnsTrip(owner: Id, h: Honeymoon) { h.userId == owner }
  predicate InAlbum(albumId: Id, p: Photo) { p.albumId == albumId }

  lemma GuestNameOrderIsPreorder()
    ensures TotalPreorder(GuestNameOrder)
  {
    forall a: Guest, b: Guest ensures GuestNameOrder(a, b) || GuestNameOrder(b, a) {
      StrLeTotal(a.name, b.name);
    }
    forall a: Guest, b: Guest, c: Guest | GuestNameOrder(a, b) && GuestNameOrder(b, c)
      ensures GuestNameOrder(a, c)
    {
      StrLeTransitive(a.name, b.name, c.name);
    }
  }

  lemma EventTimeOrderIsPreorder()
    ensures TotalPreorder(EventTimeOrder)
  {
    forall a: TimelineEvent, b: TimelineEvent ensures EventTimeOrder(a, b) || EventTimeOrder(b, a) {
      StrLeTotal(a.time, b.time);
    }
    forall a: TimelineEvent, b: TimelineEvent, c: TimelineEvent | EventTimeOrder(a, b) && EventTimeOrder(b, c)
      ensures EventTimeOrder(a, c)
    {
      StrLeTransitive(a.time, b.time, c.time);
    }
  }

  /** `Album.find({ userId }).sort({ createdAt: -1 })`: the owner's albums, newest first. */
  function AlbumsOf(albums: seq<Album>, owner: Id): (r: seq<Album>)
    ensures forall a :: multiset(r)[a] == if a.userId == owner then multiset(albums)[a] else 0
    ensures forall i, j :: 0 <= i < j < |r| ==> r[i].createdAt >= r[j].createdAt
  {
    var mine := Filter(albums, a => OwnsAlbum(owner, a));
    FilterCounts(albums, a => OwnsAlbum(owner, a));
    SortBySorted(mine, NewerAlbumFirst);
    SortBy(mine, NewerAlbumFirst)
  }

  /**
   * `Photo.find({ albumId }).sort({ createdAt: -1 })`: every photo of the
   * album, newest first, whoever uploaded it -- the route does not filter
   * by the caller.
   */
  function PhotosOf(photos: seq<Photo>, albumId: Id): (r: seq<Photo>)
    ensures forall p :: multiset(r)[p] == if p.albumId == albumId then multiset(photos)[p] else 0
    ensures forall i, j :: 0 <= i < j < |r| ==> r[i].createdAt >= r[j].createdAt
  {
    var inAlbum := Filter(photos, p => InAlbum(albumId, p));
    FilterCounts(photos, p => InAlbum(albumId, p));
    SortBySorted(inAlbum, NewerPhotoFirst);
    SortBy(inAlbum, NewerPhotoFirst)
  }

  /** `Guest.find({ userId }).sort({ name: 1 })`: the owner's guests by name. */
  function GuestsOf(guests: seq<Guest>, owner: Id): (r: seq<Guest>)
    ensures forall g :: multiset(r)[g] == if g.userId == owner then multiset(guests)[g] else 0
    ensures forall i, j :: 0 <= i < j < |r| ==> StrLe(r[i].name, r[j].name)
  {
    var mine := Filter(guests, g => OwnsGuest(owner, g));
    FilterCounts(guests, g => OwnsGuest(owner, g));
    GuestNameOrderIsPreorder();
    SortBySorted(mine, GuestNameOrder);
    SortBy(mine, GuestNameOrder)
  }

  /**
   * `TimelineEvent.find({ userId }).sort({ time: 1 })`: the owner's events
   * ordered by the time label as a string, not as a clock time.
   */
  function EventsOf(events: seq<TimelineEvent>, owner: Id): (r: seq<TimelineEvent>)
    ensures forall e :: multiset(r)[e] == if e.userId == owner then multiset(events)[e] else 0
    ensures forall i, j :: 0 <= i < j < |r| ==> StrLe(r[i].time, r[j].time)
  {
    var mine := Filter(events, e => OwnsEvent(owner, e));
    FilterCounts(events, e => OwnsEvent(owner, e));
    EventTimeOrderIsPreorder();
    SortBySorted(mine, EventTimeOrder);
    SortBy(mine, EventTimeOrder)
  }

  /** `Honeymoon.find({ userId }).sort({ startDate: 1 })`: the owner's trips, earliest first. */
  function HoneymoonsOf(honeymoons: seq<Honeymoon>, owner: Id): (r: seq<Honeymoon>)
    ensures forall h :: multiset(r)[h] == if h.userId == owner then multiset(honeymoons)[h] else 0
    ensures forall i, j :: 0 <= i < j < |r| ==> r[i].startDate <= r[j].startDate
  {
    var mine := Filter(honeymoons, h => OwnsTrip(owner, h));
    FilterCounts(honeymoons, h => OwnsTrip(owner, h));
    SortBySorted(mine, EarlierTripFirst);
    SortBy(mine, EarlierTripFirst)
  }

  /**
   * Time labels compare as strings, not as clock times: "10:00 AM" sorts
   * before "9:00 AM", and "02:00 PM" before "10:00 AM".
   */
  lemma TimeLabelsCompareAsStrings()
    ensures StrLe("10:00 AM", "9:00 AM") && !StrLe("9:00 AM", "10:00 AM")
    ensures StrLe("02:00 PM", "10:00 AM") && !StrLe("10:00 AM", "02:00 PM")
  {
  }

  // ---------------------------------------------------------- photo counting

  /** `Photo.countDocuments({ albumId })`. */
  function CountInAlbum(photos: seq<Photo>, albumId: Id): (n: nat)
    ensures n <= |photos|
    ensures n == 0 <==> forall i :: 0 <= i < |photos| ==> photos[i].albumId != albumId
  {
    if photos == [] then 0
    else CountInAlbum(photos[..|photos| - 1], albumId) + (if photos[|photos| - 1].albumId == albumId then 1 else 0)
  }

  /** The count is the number of photos an `albumId` query matches. */
  lemma {:induction false} CountInAlbumMatches(photos: seq<Photo>, albumId: Id)
    ensures CountInAlbum(photos, albumId) == |Filter(photos, p => InAlbum(albumId, p))|
  {
    if photos != [] {
      var last := photos[|photos| - 1];
      var init := photos[..|photos| - 1];
      assert photos == init + [last];
      CountInAlbumMatches(init, albumId);
      FilterAppend(init, last, p => InAlbum(albumId, p));
    }
  }

  /** After a photo is appended, its album holds exactly one photo iff it held none before. */
  lemma {:induction false} CountAfterAppend(photos: seq<Photo>, p: Photo)
    ensures CountInAlbum(photos + [p], p.albumId) == CountInAlbum(photos, p.albumId) + 1
    ensures CountInAlbum(photos + [p], p.albumId) == 1 <==> forall i :: 0 <= i < |photos| ==> photos[i].albumId != p.albumId
  {
    assert (photos + [p])[..|photos|] == photos;
  }

  /** `Album.findByIdAndUpdate(albumId, { coverImage })`: no owner check. */
  function SetCover(albums: seq<Album>, albumId: Id, url: string): (r: seq<Album>)
    ensures |r| == |albums|
    ensures forall i :: 0 <= i < |albums| ==>
              r[i] == if albums[i].id == albumId then albums[i].(coverImage := Some(url)) else albums[i]
  {
    if albums == [] then []
    else
      var head := if albums[0].id == albumId then albums[0].(coverImage := Some(url)) else albums[0];
      [head] + SetCover(albums[1..], albumId, url)
  }

  // ----------------------------------------------------------- guest update

  /** `Guest.findOne({ _id: id, userId: owner })`: the index of the first guest matching both. */
  function FindOwnedGuest(guests: seq<Guest>, id: Id, owner: Id): (r: Option<nat>)
    ensures r.Some? ==> r.value < |guests| && guests[r.value].id == id && guests[r.value].userId == owner
    ensures r.Some? ==> forall i :: 0 <= i < r.value ==> !(guests[i].id == id && guests[i].userId == owner)
    ensures r.None? <==> forall i :: 0 <= i < |guests| ==> !(guests[i].id == id && guests[i].userId == owner)
  {
    if guests == [] then None
    else if guests[0].id == id && guests[0].userId == owner then Some(0)
    else
      match FindOwnedGuest(guests[1..], id, owner)
      case None => None
      case Some(k) => Some(k + 1)
  }

  /**
   * The update document: fields left out of the body keep their stored
   * value; a `null` table unassigns the guest.
   */
  function ApplyGuestUpdate(g: Guest, body: GuestUpdate): (r: Guest)
    ensures r.id == g.id && r.userId == g.userId && r.createdAt == g.createdAt
    ensures r.name == (if body.name.Some? then body.name.value else g.name)
    ensures r.email == (if body.email.Some? then body.email.value else g.email)
    ensures r.status == (if body.status.Some? then body.status.value else g.status)
    ensures r.plusOne == (if body.plusOne.Some? then body.plusOne.value else g.plusOne)
    ensures r.table == (if body.table.Some? then body.table.value else g.table)
    ensures body.table == Some(None) ==> r.table.None?
  {
    g.(name := if body.name.Some? then body.name.value else g.name,
       email := if body.email.Some? then body.email.value else g.email,
       status := if body.status.Some? then body.status.value else g.status,
       plusOne := if body.plusOne.Some? then body.plusOne.value else g.plusOne,
       table := if body.table.Some? then body.table.value else g.table)
  }

  ghost predicate UniqueGuestIds(guests: seq<Guest>) {
    forall i, j :: 0 <= i < j < |guests| ==> guests[i].id != guests[j].id
  }

  /**
   * With guest ids unique, the guest the update finds is the only one with
   * that id: a guest of another user with the same id does not exist, and
   * one that exists under another owner is not found.
   */
  lemma UpdateTargetsOnlyThatGuest(guests: seq<Guest>, id: Id, owner: Id)
    requires UniqueGuestIds(guests)
    ensures FindOwnedGuest(guests, id, owner).Some? ==>
              forall j :: 0 <= j < |guests| && j != FindOwnedGuest(guests, id, owner).value ==> guests[j].id != id
    ensures (exists j :: 0 <= j < |guests| && guests[j].id == id && guests[j].userId != owner) ==>
              FindOwnedGuest(guests, id, owner).None?
  {
    if FindOwnedGuest(guests, id, owner).Some? {
      var k := FindOwnedGuest(guests, id, owner).value;
      assert guests[k].id == id;
    }
  }

  // ------------------------------------------------------ store invariants

  function UserId(u: User): Id { u.id }
  function AlbumId(a: Album): Id { a.id }
  function GuestId(g: Guest): Id { g.id }
  function AlbumOwner(a: Album): Id { a.userId }
  function PhotoOwner(p: Photo): Id { p.userId }
  function GuestOwner(g: Guest): Id { g.userId }
  function EventOwner(e: TimelineEvent): Id { e.userId }
  function TripOwner(h: Honeymoon): Id { h.userId }

  /** Identifiers below the counter and pairwise distinct. */
  ghost predicate FreshIds<T>(s: seq<T>, id: T -> Id, next: Id) {
    && (forall i :: 0 <= i < |s| ==> id(s[i]) < next)
    && (forall i, j :: 0 <= i < j < |s| ==> id(s[i]) != id(s[j]))
  }

  /** Every record's owner is a stored user. */
  ghost predicate OwnedBy<T>(s: seq<T>, owner: T -> Id, users: seq<User>) {
    forall i :: 0 <= i < |s| ==> FindUserById(users, owner(s[i])).Some?
  }

  /** Every album cover is the image of a photo filed under that album. */
  ghost predicate CoversFromPhotos(albums: seq<Album>, photos: seq<Photo>) {
    forall i :: 0 <= i < |albums| && albums[i].coverImage.Some? ==>
      exists p :: p in photos && p.albumId == albums[i].id && p.imageUrl == albums[i].coverImage.value
  }

  lemma FreshIdsAppend<T>(s: seq<T>, id: T -> Id, next: Id, x: T)
    requires FreshIds(s, id, next) && id(x) == next
    ensures FreshIds(s + [x], id, next + 1)
  {
  }

  lemma OwnedByAppend<T>(s: seq<T>, owner: T -> Id, users: seq<User>, x: T)
    requires OwnedBy(s, owner, users) && FindUserById(users, owner(x)).Some?
    ensures OwnedBy(s + [x], owner, users)
  {
  }

  /** A user lookup that succeeds keeps succeeding when users are added. */
  lemma FindUserByIdGrows(users: seq<User>, u: User, id: Id)
    requires FindUserById(users, id).Some?
    ensures FindUserById(users + [u], id).Some?
  {
    var k :| 0 <= k < |users| && users[k].id == id;
    assert (users + [u])[k].id == id;
  }

  lemma OwnedByGrows<T>(s: seq<T>, owner: T -> Id, users: seq<User>, u: User)
    requires OwnedBy(s, owner, users)
    ensures OwnedBy(s, owner, users + [u])
  {
    forall i | 0 <= i < |s| ensures FindUserById(users + [u], owner(s[i])).Some? {
      FindUserByIdGrows(users, u, owner(s[i]));
    }
  }

  /** Filing a photo, and then pointing its album's cover at it, keeps every cover backed by a photo. */
  lemma CoversAfterPhoto(albums: seq<Album>, photos: seq<Photo>, p: Photo)
    requires CoversFromPhotos(albums, photos)
    ensures CoversFromPhotos(albums, photos + [p])
    ensures CoversFromPhotos(SetCover(albums, p.albumId, p.imageUrl), photos + [p])
  {
    var after := photos + [p];
    forall i | 0 <= i < |albums| && albums[i].coverImage.Some?
      ensures exists q :: q in after && q.albumId == albums[i].id && q.imageUrl == albums[i].coverImage.value
    {
      var q :| q in photos && q.albumId == albums[i].id && q.imageUrl == albums[i].coverImage.value;
      assert q in after;
    }
    var covered := SetCover(albums, p.albumId, p.imageUrl);
    forall i | 0 <= i < |covered| && covered[i].coverImage.Some?
      ensures exists q :: q in after && q.albumId == covered[i].id && q.imageUrl == covered[i].coverImage.value
    {
      if albums[i].id == p.albumId {
        assert p in after;
      } else {
        var q :| q in photos && q.albumId == albums[i].id && q.imageUrl == albums[i].coverImage.value;
        assert q in after;
      }
    }
  }

  /** Setting a cover changes no album's id or owner. */
  lemma SetCoverKeepsIdsAndOwners(albums: seq<Album>, albumId: Id, url: string, next: Id, users: seq<User>)
    requires FreshIds(albums, AlbumId, next) && OwnedBy(albums, AlbumOwner, users)
    ensures FreshIds(SetCover(albums, albumId, url), AlbumId, next)
    ensures OwnedBy(SetCover(albums, albumId, url), AlbumOwner, users)
  {
    var r := SetCover(albums, albumId, url);
    assert forall i :: 0 <= i < |r| ==> r[i].id == albums[i].id && r[i].userId == albums[i].userId;
  }

  /** Replacing one record by one with the same id and owner keeps both invariants. */
  lemma GuestReplaced(guests: seq<Guest>, k: nat, g: Guest, next: Id, users: seq<User>)
    requires k < |guests| && g.id == guests[k].id && g.userId == guests[k].userId
    requires FreshIds(guests, GuestId, next) && OwnedBy(guests, GuestOwner, users)
    ensures FreshIds(guests[k := g], GuestId, next) && OwnedBy(guests[k := g], GuestOwner, users)
  {
  }

  /** A snapshot of every collection and the id counter. */
  datatype StoreState = StoreState(users: seq<User>, albums: seq<Album>, photos: seq<Photo>, guests: seq<Guest>,
                                   events: seq<TimelineEvent>, honeymoons: seq<Honeymoon>, nextId: Id)

  /**
   * The store invariant: emails unique; user, album and guest ids fresh
   * and distinct; every record owned by a stored user; every album cover
   * the image of a photo filed under that album.
   */
  ghost predicate ValidState(st: StoreState) {
    && UniqueEmails(st.users)
    && FreshIds(st.users, UserId, st.nextId)
    && FreshIds(st.albums, AlbumId, st.nextId)
    && FreshIds(st.guests, GuestId, st.nextId)
    && OwnedBy(st.albums, AlbumOwner, st.users)
    && OwnedBy(st.photos, PhotoOwner, st.users)
    && OwnedBy(st.guests, GuestOwner, st.users)
    && OwnedBy(st.events, EventOwner, st.users)
    && OwnedBy(st.honeymoons, TripOwner, st.users)
    && CoversFromPhotos(st.albums, st.photos)
  }

  /**
   * The store after a photo is saved: the photo appended and, when its
   * album now holds exactly one photo, that album's cover set to it.
   */
  function PhotoFiled(st: StoreState, p: Photo): StoreState {
    var photos := st.photos + [p];
    st.(photos := photos, nextId := st.nextId + 1,
        albums := if CountInAlbum(photos, p.albumId) == 1 then SetCover(st.albums, p.albumId, p.imageUrl) else st.albums)
  }

  /**
   * The first photo filed under an album becomes the cover of that album,
   * whoever owns the album; a later photo leaves every album as it was.
   * Nothing but the photos, the albums and the counter changes.
   */
  lemma {:induction false} CoverFollowsFirstPhoto(st: StoreState, p: Photo)
    ensures var after := PhotoFiled(st, p);
            && after.photos == st.photos + [p]
            && after.users == st.users && after.guests == st.guests
            && after.events == st.events && after.honeymoons == st.honeymoons
            && |after.albums| == |st.albums|
    ensures CountInAlbum(st.photos, p.albumId) == 0 ==>
              forall i :: 0 <= i < |st.albums| ==>
                PhotoFiled(st, p).albums[i] ==
                  if st.albums[i].id == p.albumId then st.albums[i].(coverImage := Some(p.imageUrl)) else st.albums[i]
    ensures CountInAlbum(st.photos, p.albumId) > 0 ==> PhotoFiled(st, p).albums == st.albums
  {
    CountAfterAppend(st.photos, p);
  }

  /** Filing a photo of a stored user keeps the invariant. */
  lemma PhotoFiledKeepsValid(st: StoreState, p: Photo)
    requires ValidState(st) && FindUserById(st.users, p.userId).Some?
    ensures ValidState(PhotoFiled(st, p))
  {
    CoversAfterPhoto(st.albums, st.photos, p);
    OwnedByAppend(st.photos, PhotoOwner, st.users, p);
    SetCoverKeepsIdsAndOwners(st.albums, p.albumId, p.imageUrl, st.nextId + 1, st.users);
  }

  lemma UserAddedKeepsValid(st: StoreState, u: User)
    requires ValidState(st) && u.id == st.nextId
    requires forall i :: 0 <= i < |st.users| ==> st.users[i].email != u.email
    ensures ValidState(st.(users := st.users + [u], nextId := st.nextId + 1))
  {
    FreshIdsAppend(st.users, UserId, st.nextId, u);
    OwnedByGrows(st.albums, AlbumOwner, st.users, u);
    OwnedByGrows(st.photos, PhotoOwner, st.users, u);
    OwnedByGrows(st.guests, GuestOwner, st.users, u);
    OwnedByGrows(st.events, EventOwner, st.users, u);
    OwnedByGrows(st.honeymoons, TripOwner, st.users, u);
  }

  lemma AlbumAddedKeepsValid(st: StoreState, a: Album)
    requires ValidState(st) && a.id == st.nextId && a.coverImage.None?
    requires FindUserById(st.users, a.userId).Some?
    ensures ValidState(st.(albums := st.albums + [a], nextId := st.nextId + 1))
  {
    FreshIdsAppend(st.albums, AlbumId, st.nextId, a);
    OwnedByAppend(st.albums, AlbumOwner, st.users, a);
  }

  lemma GuestAddedKeepsValid(st: StoreState, g: Guest)
    requires ValidState(st) && g.id == st.nextId
    requires FindUserById(st.users, g.userId).Some?
    ensures ValidState(st.(guests := st.guests + [g], nextId := st.nextId + 1))
  {
    FreshIdsAppend(st.guests, GuestId, st.nextId, g);
    OwnedByAppend(st.guests, GuestOwner, st.users, g);
  }

  lemma GuestUpdatedKeepsValid(st: StoreState, k: nat, g: Guest)
    requires ValidState(st) && k < |st.guests|
    requires g.id == st.guests[k].id && g.userId == st.guests[k].userId
    ensures ValidState(st.(guests := st.guests[k := g]))
  {
    GuestReplaced(st.guests, k, g, st.nextId, st.users);
  }

  lemma EventAddedKeepsValid(st: StoreState, e: TimelineEvent)
    requires ValidState(st) && FindUserById(st.users, e.userId).Some?
    ensures ValidState(st.(events := st.events + [e], nextId := st.nextId + 1))
  {
    OwnedByAppend(st.events, EventOwner, st.users, e);
  }

  lemma TripAddedKeepsValid(st: StoreState, h: Honeymoon)
    requires ValidState(st) && FindUserById(st.users, h.userId).Some?
    ensures ValidState(st.(honeymoons := st.honeymoons + [h], nextId := st.nextId + 1))
  {
    OwnedByAppend(st.honeymoons, TripOwner, st.users, h);
  }

  // ------------------------------------------------------------ the store

  class Store {
    var users: seq<User>
    var albums: seq<Album>
    var photos: seq<Photo>
    var guests: seq<Guest>
    var events: seq<TimelineEvent>
    var honeymoons: seq<Honeymoon>
    /** The next identifier to hand out. */
    var nextId: Id

    ghost predicate Valid()
      reads this
    {
      ValidState(State())
    }

    ghost function State(): StoreState
      reads this
    {
      StoreState(users, albums, photos, guests, events, honeymoons, nextId)
    }

    constructor ()
      ensures Valid()
      ensures users == [] && albums == [] && photos == [] && guests == [] && events == [] && honeymoons == []
    {
      users, albums, photos, guests, events, honeymoons := [], [], [], [], [], [];
      nextId := 0;
    }

    /** `POST /api/register`. */
    method Register(body: RegisterBody, salt: string, kdf: Kdf, sign: Signer, now: int)
      returns (r: Result<Session, HttpError>)
      requires Valid()
      modifies this
      ensures Valid()
      ensures State() == old(State()).(users := users, nextId := nextId)
      ensures FindUserByEmail(old(users), body.email).Some? ==>
                r == Failure(UserExists) && users == old(users) && nextId == old(nextId)
      ensures FindUserByEmail(old(users), body.email).None? && body.password.None? ==>
                r == Failure(ServerError) && users == old(users) && nextId == old(nextId)
      ensures FindUserByEmail(old(users), body.email).None? && !CompleteRegistration(body) ==>
                r == Failure(ServerError) && users == old(users) && nextId == old(nextId)
      ensures r.Success? ==>
                && FindUserByEmail(old(users), body.email).None?
                && body.password.Some?
                && nextId == old(nextId) + 1
                && var u := User(old(nextId), body.firstName.value, body.lastName.value, body.email,
                                 HashPassword(kdf, body.password.value, salt), body.weddingDate.value, now);
                   users == old(users) + [u] && r.value == Session(sign(u.id), Summary(u))
      ensures FindUserByEmail(old(users), body.email).None? && body.password.Some? && CompleteRegistration(body) ==> r.Success?
    {
      if FindUserByEmail(users, body.email).Some? {
        return Failure(UserExists);
      }
      if body.password.None? {
        // `bcrypt.hash(undefined, salt)` rejects before the user is built.
        return Failure(ServerError);
      }
      var hashed := HashPassword(kdf, body.password.value, salt);
      if !CompleteRegistration(body) {
        return Failure(ServerError);
      }
      var u := User(nextId, body.firstName.value, body.lastName.value, body.email, hashed, body.weddingDate.value, now);
      ghost var st := State();
      UserAddedKeepsValid(st, u);
      users := users + [u];
      nextId := nextId + 1;
      assert State() == st.(users := st.users + [u], nextId := st.nextId + 1);
      r := Success(Session(sign(u.id), Summary(u)));
    }

    /** `POST /api/albums`: a new album of the caller, without a cover. */
    method CreateAlbum(header: Option<string>, verify: Verifier, body: AlbumBody, now: int)
      returns (r: Result<Album, HttpError>)
      requires Valid()
      modifies this
      ensures Valid()
      ensures State() == old(State()).(albums := albums, nextId := nextId)
      ensures var who := Authenticate(old(users), header, verify);
              who.Failure? ==> r == Failure(Unauthenticated) && unchanged(this)
      ensures var who := Authenticate(old(users), header, verify);
              who.Success? && !ValidAlbumBody(body) ==> r == Failure(ServerError) && unchanged(this)
      ensures var who := Authenticate(old(users), header, verify);
              who.Success? && ValidAlbumBody(body) ==>
                && r == Success(Album(old(nextId), body.title.value, body.description, None, who.value.id, now))
                && albums == old(albums) + [r.value] && nextId == old(nextId) + 1
    {
      var who := Authenticate(users, header, verify);
      if who.Failure? {
        return Failure(Unauthenticated);
      }
      if !ValidAlbumBody(body) {
        return Failure(ServerError);
      }
      var album := Album(nextId, body.title.value, body.description, None, who.value.id, now);
      ghost var st := State();
      AlbumAddedKeepsValid(st, album);
      albums := albums + [album];
      nextId := nextId + 1;
      assert State() == st.(albums := st.albums + [album], nextId := st.nextId + 1);
      r := Success(album);
    }

    /**
     * `POST /api/photos`: the upload middleware runs after the gate, then
     * the handler refuses a request without a file, files the photo and, when
     * the album now holds exactly this one photo, makes it the album's cover.
     */
    method CreatePhoto(header: Option<string>, verify: Verifier, file: Option<Upload.IncomingFile>,
                       body: PhotoBody, uuid: string, now: int)
      returns (r: Result<Photo, HttpError>)
      requires Valid()
      modifies this
      ensures Valid()
      ensures var who := Authenticate(old(users), header, verify);
              who.Failure? ==> r == Failure(Unauthenticated) && unchanged(this)
      ensures var who := Authenticate(old(users), header, verify);
              who.Success? && file.Some? && Upload.Accept(file.value, uuid).Failure? ==>
                r == Failure(UploadError(Upload.Accept(file.value, uuid).error)) && unchanged(this)
      ensures var who := Authenticate(old(users), header, verify);
              who.Success? && file.None? ==> r == Failure(NoImage) && unchanged(this)
      ensures var who := Authenticate(old(users), header, verify);
              who.Success? && file.Some? && Upload.Accept(file.value, uuid).Success? && body.albumId.None? ==>
                r == Failure(ServerError) && unchanged(this)
      ensures var who := Authenticate(old(users), header, verify);
              who.Success? && file.Some? && Upload.Accept(file.value, uuid).Success? && body.albumId.Some? ==>
                && r.Success?
                && r.value == Photo(old(nextId), body.title, body.description,
                                    Upload.StoredReference(Upload.Accept(file.value, uuid).value),
                                    body.albumId.value, who.value.id, None, 0, now)
                && State() == PhotoFiled(old(State()), r.value)
    {
      var who := Authenticate(users, header, verify);
      if who.Failure? {
        return Failure(Unauthenticated);
      }
      if file.None? {
        return Failure(NoImage);
      }
      var accepted := Upload.Accept(file.value, uuid);
      if accepted.Failure? {
        return Failure(UploadError(accepted.error));
      }
      if body.albumId.None? {
        return Failure(ServerError);
      }
      var photo := Photo(nextId, body.title, body.description, Upload.StoredReference(accepted.value),
                         body.albumId.value, who.value.id, None, 0, now);
      FilePhoto(photo);
      r := Success(photo);
    }

    /**
     * Saves a photo, then counts the photos filed under its album and, when
     * there is exactly one, sets that album's cover to the photo's image.
     */
    method FilePhoto(photo: Photo)
      requires Valid() && photo.id == nextId && FindUserById(users, photo.userId).Some?
      modifies this
      ensures Valid()
      ensures State() == PhotoFiled(old(State()), photo)
    {
      ghost var st := State();
      var saved := photos + [photo];
      var covered := albums;
      var inAlbum := CountInAlbum(saved, photo.albumId);
      if inAlbum == 1 {
        covered := SetCover(albums, photo.albumId, photo.imageUrl);
      }
      photos, albums, nextId := saved, covered, nextId + 1;
      assert State() == PhotoFiled(st, photo);
      PhotoFiledKeepsValid(st, photo);
    }

    /** `POST /api/guests`: status defaults to "pending", plus-one to false. */
    method CreateGuest(header: Option<string>, verify: Verifier, body: GuestBody, now: int)
      returns (r: Result<Guest, HttpError>)
      requires Valid()
      modifies this
      ensures Valid()
      ensures State() == old(State()).(guests := guests, nextId := nextId)
      ensures var who := Authenticate(old(users), header, verify);
              who.Failure? ==> r == Failure(Unauthenticated) && unchanged(this)
      ensures var who := Authenticate(old(users), header, verify);
              who.Success? && !ValidGuestBody(body) ==> r == Failure(ServerError) && unchanged(this)
      ensures var who := Authenticate(old(users), header, verify);
              who.Success? && ValidGuestBody(body) ==>
                && r == Success(Guest(old(nextId), body.name.value, body.email.value, GuestStatusOf(body.status),
                                      if body.plusOne.Some? then body.plusOne.value else false,
                                      body.table, who.value.id, now))
                && guests == old(guests) + [r.value] && nextId == old(nextId) + 1
      ensures r.Success? ==> IsGuestStatus(r.value.status)
    {
      var who := Authenticate(users, header, verify);
      if who.Failure? {
        return Failure(Unauthenticated);
      }
      if !ValidGuestBody(body) {
        return Failure(ServerError);
      }
      var plusOne := if body.plusOne.Some? then body.plusOne.value else false;
      var guest := Guest(nextId, body.name.value, body.email.value, GuestStatusOf(body.status), plusOne,
                         body.table, who.value.id, now);
      ghost var st := State();
      GuestAddedKeepsValid(st, guest);
      guests := guests + [guest];
      nextId := nextId + 1;
      assert State() == st.(guests := st.guests + [guest], nextId := st.nextId + 1);
      r := Success(guest);
    }

    /**
     * `PUT /api/guests/:id`: changes the one guest with this id owned by the
     * caller; the fields given replace the stored ones, unvalidated.
     */
    method UpdateGuest(header: Option<string>, verify: Verifier, id: Id, body: GuestUpdate)
      returns (r: Result<Guest, HttpError>)
      requires Valid()
      modifies this
      ensures Valid()
      ensures State() == old(State()).(guests := guests)
      ensures var who := Authenticate(old(users), header, verify);
              who.Failure? ==> r == Failure(Unauthenticated) && unchanged(this)
      ensures var who := Authenticate(old(users), header, verify);
              who.Success? && FindOwnedGuest(old(guests), id, who.value.id).None? ==>
                r == Failure(GuestNotFound) && unchanged(this)
      ensures var who := Authenticate(old(users), header, verify);
              who.Success? && FindOwnedGuest(old(guests), id, who.value.id).Some? ==>
                var k := FindOwnedGuest(old(guests), id, who.value.id).value;
                && r == Success(ApplyGuestUpdate(old(guests)[k], body))
                && guests == old(guests)[k := r.value]
      ensures r.Success? ==> r.value.id == id
      ensures forall j :: 0 <= j < |old(guests)| && old(guests)[j].id != id ==> j < |guests| && guests[j] == old(guests)[j]
    {
      var who := Authenticate(users, header, verify);
      if who.Failure? {
        return Failure(Unauthenticated);
      }
      var found := FindOwnedGuest(guests, id, who.value.id);
      if found.None? {
        return Failure(GuestNotFound);
      }
      var k := found.value;
      var updated := ApplyGuestUpdate(guests[k], body);
      ghost var st := State();
      GuestUpdatedKeepsValid(st, k, updated);
      guests := guests[k := updated];
      assert State() == st.(guests := st.guests[k := updated]);
      r := Success(updated);
    }

    /** `POST /api/timeline`: category defaults to "other". */
    method CreateEvent(header: Option<string>, verify: Verifier, body: EventBody, now: int)
      returns (r: Result<TimelineEvent, HttpError>)
      requires Valid()
      modifies this
      ensures Valid()
      ensures State() == old(State()).(events := events, nextId := nextId)
      ensures var who := Authenticate(old(users), header, verify);
              who.Failure? ==> r == Failure(Unauthenticated) && unchanged(this)
      ensures var who := Authenticate(old(users), header, verify);
              who.Success? && !ValidEventBody(body) ==> r == Failure(ServerError) && unchanged(this)
      ensures var who := Authenticate(old(users), header, verify);
              who.Success? && ValidEventBody(body) ==>
                && r == Success(TimelineEvent(old(nextId), body.time.value, body.title.value, body.description,
                                              body.location, CategoryOf(body.category), who.value.id, now))
                && events == old(events) + [r.value] && nextId == old(nextId) + 1
      ensures r.Success? ==> IsCategory(r.value.category)
    {
      var who := Authenticate(users, header, verify);
      if who.Failure? {
        return Failure(Unauthenticated);
      }
      if !ValidEventBody(body) {
        return Failure(ServerError);
      }
      var event := TimelineEvent(nextId, body.time.value, body.title.value, body.description, body.location,
                                 CategoryOf(body.category), who.value.id, now);
      ghost var st := State();
      EventAddedKeepsValid(st, event);
      events := events + [event];
      nextId := nextId + 1;
      assert State() == st.(events := st.events + [event], nextId := st.nextId + 1);
      r := Success(event);
    }

    /** `POST /api/honeymoon`: the image is optional; without one the stored reference is null. */
    method CreateHoneymoon(header: Option<string>, verify: Verifier, file: Option<Upload.IncomingFile>,
                           body: HoneymoonBody, uuid: string, now: int)
      returns (r: Result<Honeymoon, HttpError>)
      requires Valid()
      modifies this
      ensures Valid()
      ensures State() == old(State()).(honeymoons := honeymoons, nextId := nextId)
      ensures var who := Authenticate(old(users), header, verify);
              who.Failure? ==> r == Failure(Unauthenticated) && unchanged(this)
      ensures var who := Authenticate(old(users), header, verify);
              who.Success? && file.Some? && Upload.Accept(file.value, uuid).Failure? ==>
                r == Failure(UploadError(Upload.Accept(file.value, uuid).error)) && unchanged(this)
      ensures var who := Authenticate(old(users), header, verify);
              who.Success? && (file.None? || Upload.Accept(file.value, uuid).Success?) && !ValidHoneymoonBody(body) ==>
                r == Failure(ServerError) && unchanged(this)
      ensures var who := Authenticate(old(users), header, verify);
              who.Success? && (file.None? || Upload.Accept(file.value, uuid).Success?) && ValidHoneymoonBody(body) ==>
                && r == Success(Honeymoon(old(nextId), body.destination.value, body.startDate.value, body.endDate.value,
                                          body.description,
                                          if file.Some? then Some(Upload.StoredReference(Upload.Accept(file.value, uuid).value)) else None,
                                          who.value.id, now))
                && honeymoons == old(honeymoons) + [r.value] && nextId == old(nextId) + 1
    {
      var who := Authenticate(users, header, verify);
      if who.Failure? {
        return Failure(Unauthenticated);
      }
      var imageUrl: Option<string> := None;
      if file.Some? {
        var accepted := Upload.Accept(file.value, uuid);
        if accepted.Failure? {
          return Failure(UploadError(accepted.error));
        }
        imageUrl := Some(Upload.StoredReference(accepted.value));
      }
      if !ValidHoneymoonBody(body) {
        return Failure(ServerError);
      }
      var trip := Honeymoon(nextId, body.destination.value, body.startDate.value, body.endDate.value,
                            body.description, imageUrl, who.value.id, now);
      ghost var st := State();
      TripAddedKeepsValid(st, trip);
      honeymoons := honeymoons + [trip];
      nextId := nextId + 1;
      assert State() == st.(honeymoons := st.honeymoons + [trip], nextId := st.nextId + 1);
      r := Success(trip);
    }

    /** `GET /api/albums`: the caller's albums and no one else's, newest first. */
    function GetAlbums(header: Option<string>, verify: Verifier): (r: Result<seq<Album>, HttpError>)
      reads this
      ensures r.Failure? <==> Authenticate(users, header, verify).Failure?
      ensures r.Failure? ==> r.error == Unauthenticated
      ensures r.Success? ==> forall a :: a in r.value <==> a in albums && a.userId == Authenticate(users, header, verify).value.id
      ensures r.Success? ==> forall a :: multiset(r.value)[a] == if a.userId == Authenticate(users, header, verify).value.id then multiset(albums)[a] else 0
      ensures r.Success? ==> forall i, j :: 0 <= i < j < |r.value| ==> r.value[i].createdAt >= r.value[j].createdAt
    {
      match Authenticate(users, header, verify)
      case Failure(e) => Failure(e)
      case Success(who) => Success(AlbumsOf(albums, who.id))
    }

    /** `GET /api/photos/:albumId`: every photo filed under the album, the caller's or not, newest first. */
    function GetPhotos(header: Option<string>, verify: Verifier, albumId: Id): (r: Result<seq<Photo>, HttpError>)
      reads this
      ensures r.Failure? <==> Authenticate(users, header, verify).Failure?
      ensures r.Failure? ==> r.error == Unauthenticated
      ensures r.Success? ==> forall p :: p in r.value <==> p in photos && p.albumId == albumId
      ensures r.Success? ==> forall p :: multiset(r.value)[p] == if p.albumId == albumId then multiset(photos)[p] else 0
      ensures r.Success? ==> forall i, j :: 0 <= i < j < |r.value| ==> r.value[i].createdAt >= r.value[j].createdAt
    {
      match Authenticate(users, header, verify)
      case Failure(e) => Failure(e)
      case Success(_) => Success(PhotosOf(photos, albumId))
    }

    /** `GET /api/guests`: the caller's guests, by name. */
    function GetGuests(header: Option<string>, verify: Verifier): (r: Result<seq<Guest>, HttpError>)
      reads this
      ensures r.Failure? <==> Authenticate(users, header, verify).Failure?
      ensures r.Failure? ==> r.error == Unauthenticated
      ensures r.Success? ==> forall g :: g in r.value <==> g in guests && g.userId == Authenticate(users, header, verify).value.id
      ensures r.Success? ==> forall g :: multiset(r.value)[g] == if g.userId == Authenticate(users, header, verify).value.id then multiset(guests)[g] else 0
      ensures r.Success? ==> forall i, j :: 0 <= i < j < |r.value| ==> StrLe(r.value[i].name, r.value[j].name)
    {
      match Authenticate(users, header, verify)
      case Failure(e) => Failure(e)
      case Success(who) => Success(GuestsOf(guests, who.id))
    }

    /** `GET /api/timeline`: the caller's events, by time label as a string. */
    function GetEvents(header: Option<string>, verify: Verifier): (r: Result<seq<TimelineEvent>, HttpError>)
      reads this
      ensures r.Failure? <==> Authenticate(users, header, verify).Failure?
      ensures r.Failure? ==> r.error == Unauthenticated
      ensures r.Success? ==> forall e :: e in r.value <==> e in events && e.userId == Authenticate(users, header, verify).value.id
      ensures r.Success? ==> forall e :: multiset(r.value)[e] == if e.userId == Authenticate(users, header, verify).value.id then multiset(events)[e] else 0
      ensures r.Success? ==> forall i, j :: 0 <= i < j < |r.value| ==> StrLe(r.value[i].time, r.value[j].time)
    {
      match Authenticate(users, header, verify)
      case Failure(e) => Failure(e)
      case Success(who) => Success(EventsOf(events, who.id))
    }

    /** `GET /api/honeymoon`: the caller's trips, earliest start first. */
    function GetHoneymoons(header: Option<string>, verify: Verifier): (r: Result<seq<Honeymoon>, HttpError>)
      reads this
      ensures r.Failure? <==> Authenticate(users, header, verify).Failure?
      ensures r.Failure? ==> r.error == Unauthenticated
      ensures r.Success? ==> forall h :: h in r.value <==> h in honeymoons && h.userId == Authenticate(users, header, verify).value.id
      ensures r.Success? ==> forall h :: multiset(r.value)[h] == if h.userId == Authenticate(users, header, verify).value.id then multiset(honeymoons)[h] else 0
      ensures r.Success? ==> forall i, j :: 0 <= i < j < |r.value| ==> r.value[i].startDate <= r.value[j].startDate
    {
      match Authenticate(users, header, verify)
      case Failure(e) => Failure(e)
      case Success(who) => Success(HoneymoonsOf(honeymoons, who.id))
    }
  }
}

=== FILE: text.dfy ===
/**
 * String helpers shared by the server and the UI components: substring search
 * (JavaScript's `includes`), prefixes (`startsWith`), ASCII case mapping, the
 * whitespace class of JavaScript regular expressions and string order.
 */
module Text {

  /** `pre` is a prefix of `s` (JavaScript `s.startsWith(pre)`). */
  predicate StartsWith(s: string, pre: string) {
    |pre| <= |s| && s[..|pre|] == pre
  }

  /** `s.includes(sub)`: `sub` occurs in `s` at some position. */
  predicate Contains(s: string, sub: string)
    ensures Contains(s, sub) ==> |sub| <= |s|
    ensures Contains(s, sub) <==> exists i :: OccursAt(s, sub, i)
    decreases |s|
  {
    forall j | 1 <= j && |s| > 0
      ensures OccursAt(s, sub, j) <==> OccursAt(s[1..], sub, j - 1)
    {
      OccursShift(s, sub, j);
    }
    forall j | 0 <= j && |s| > 0 && OccursAt(s[1..], sub, j)
      ensures OccursAt(s, sub, j + 1)
    {
      OccursShift(s, sub, j + 1);
    }
    assert StartsWith(s, sub) <==> OccursAt(s, sub, 0);
    StartsWith(s, sub) || (|s| > 0 && Contains(s[1..], sub))
  }

  /** The empty string occurs in every string. */
  lemma ContainsEmpty(s: string)
    ensures Contains(s, "")
  {
  }

  /** An occurrence in `t` is an occurrence in `s + t`. */
  lemma {:induction false} ContainsInSuffix(s: string, t: string, sub: string)
    requires Contains(t, sub)
    ensures Contains(s + t, sub)
    decreases |s|
  {
    if |s| > 0 {
      ContainsInSuffix(s[1..], t, sub);
      assert (s + t)[1..] == s[1..] + t;
    } else {
      assert s + t == t;
    }
  }

  /** ASCII upper-case letter to lower case; every other character unchanged. */
  function LowerChar(c: char): (r: char)
    ensures 'A' <= c <= 'Z' ==> 'a' <= r <= 'z'
    ensures !('A' <= c <= 'Z') ==> r == c
  {
    if 'A' <= c <= 'Z' then (c as int + 32) as char else c
  }

  /** ASCII lower-case letter to upper case; every other character unchanged. */
  function UpperChar(c: char): (r: char)
    ensures 'a' <= c <= 'z' ==> 'A' <= r <= 'Z'
    ensures !('a' <= c <= 'z') ==> r == c
  {
    if 'a' <= c <= 'z' then (c as int - 32) as char else c
  }

  /** `s.toLowerCase()` restricted to ASCII letters. */
  function Lower(s: string): (r: string)
    ensures |r| == |s|
    ensures forall i :: 0 <= i < |s| ==> r[i] == LowerChar(s[i])
  {
    if s == [] then [] else [LowerChar(s[0])] + Lower(s[1..])
  }

  /**
   * The characters matched by `\s` in a JavaScript regular expression and
   * removed by `String.prototype.trim`: white space and line terminators.
   */
  predicate IsWhitespace(c: char) {
    c == ' ' || c == '\t' || c == '\n' || c == '\r' || c == '\U{B}' || c == '\U{C}'
    || c == '\U{A0}' || c == '\U{1680}' || ('\U{2000}' <= c <= '\U{200A}')
    || c == '\U{2028}' || c == '\U{2029}' || c == '\U{202F}' || c == '\U{205F}'
    || c == '\U{3000}' || c == '\U{FEFF}'
  }

  /** `s.trimStart()`: `s` without its leading whitespace. */
  function TrimStart(s: string): (r: string)
    ensures |r| <= |s| && r == s[|s| - |r|..]
    ensures forall i :: 0 <= i < |s| - |r| ==> IsWhitespace(s[i])
    ensures r != [] ==> !IsWhitespace(r[0])
  {
    if s != [] && IsWhitespace(s[0]) then TrimStart(s[1..]) else s
  }

  /** `s.trimEnd()`: `s` without its trailing whitespace. */
  function TrimEnd(s: string): (r: string)
    ensures |r| <= |s| && r == s[..|r|]
    ensures forall i :: |r| <= i < |s| ==> IsWhitespace(s[i])
    ensures r != [] ==> !IsWhitespace(r[|r| - 1])
  {
    if s != [] && IsWhitespace(s[|s| - 1]) then TrimEnd(s[..|s| - 1]) else s
  }

  /**
   * `s.trim()`: `s` without its leading and trailing whitespace -- a piece
   * of `s` with only whitespace before and after it.
   */
  function Trim(s: string): (r: string)
    ensures exists k :: && OccursAt(s, r, k)
                        && (forall i :: 0 <= i < k ==> IsWhitespace(s[i]))
                        && (forall i :: k + |r| <= i < |s| ==> IsWhitespace(s[i]))
  {
    var t := TrimStart(s);
    var r := TrimEnd(t);
    var k := |s| - |t|;
    assert OccursAt(s, r, k) by {
      assert s[k..k + |r|] == t[..|r|];
    }
    forall i | k + |r| <= i < |s|
      ensures IsWhitespace(s[i])
    {
      assert s[i] == t[i - k];
    }
    r
  }

  /** What `trim` leaves neither starts nor ends with whitespace. */
  lemma TrimmedEnds(s: string)
    ensures Trim(s) != [] ==> !IsWhitespace(Trim(s)[0]) && !IsWhitespace(Trim(s)[|Trim(s)| - 1])
  {
    var t := TrimStart(s);
    var r := TrimEnd(t);
    if r != [] {
      assert r[0] == t[0];
    }
  }

  /** `s.trim() === ""`: every character is whitespace. */
  predicate IsBlank(s: string) {
    forall i :: 0 <= i < |s| ==> IsWhitespace(s[i])
  }

  /** A text is blank exactly when trimming leaves nothing. */
  lemma BlankIffTrimmedEmpty(s: string)
    ensures IsBlank(s) <==> Trim(s) == []
  {
    var t := TrimStart(s);
    assert t != [] ==> t[0] == s[|s| - |t|];
    assert forall i :: 0 <= i < |t| ==> t[i] == s[|s| - |t| + i];
  }

  /**
   * Lexicographic order on code points: the order MongoDB uses for a
   * string sort key under its default (binary) collation.
   */
  predicate StrLe(a: string, b: string)
    ensures StartsWith(b, a) ==> StrLe(a, b)
    decreases |a|
  {
    assert a != [] && StartsWith(b, a) ==> StartsWith(b[1..], a[1..]);
    a == [] || (b != [] && (a[0] < b[0] || (a[0] == b[0] && StrLe(a[1..], b[1..]))))
  }

  lemma {:induction false} StrLeTotal(a: string, b: string)
    ensures StrLe(a, b) || StrLe(b, a)
    decreases |a|
  {
    if a != [] && b != [] && a[0] == b[0] {
      StrLeTotal(a[1..], b[1..]);
    }
  }

  lemma {:induction false} StrLeAntisymmetric(a: string, b: string)
    requires StrLe(a, b) && StrLe(b, a)
    ensures a == b
    decreases |a|
  {
    if a != [] && b != [] {
      StrLeAntisymmetric(a[1..], b[1..]);
      assert a == [a[0]] + a[1..] && b == [b[0]] + b[1..];
    }
  }

  lemma {:induction false} StrLeTransitive(a: string, b: string, c: string)
    requires StrLe(a, b) && StrLe(b, c)
    ensures StrLe(a, c)
    decreases |a|
  {
    if a != [] && b != [] && c != [] && a[0] == b[0] && b[0] == c[0] {
      StrLeTransitive(a[1..], b[1..], c[1..]);
    }
  }

  /**
   * `s.replace(pat, "")` for a string pattern: removes the FIRST occurrence
   * of `pat`, wherever it stands; `s` unchanged when `pat` does not occur.
   */
  function RemoveFirst(s: string, pat: string): (r: string)
    requires pat != []
    ensures !Contains(s, pat) ==> r == s
    ensures Contains(s, pat) ==> |r| == |s| - |pat|
    decreases |s|
  {
    if |s| < |pat| then s
    else if s[..|pat|] == pat then s[|pat|..]
    else [s[0]] + RemoveFirst(s[1..], pat)
  }

  /** `pat` occurs in `s` starting at position `i`. */
  predicate OccursAt(s: string, pat: string, i: int) {
    0 <= i && i + |pat| <= |s| && s[i..i + |pat|] == pat
  }

  /** Dropping the first character moves every later occurrence one place left. */
  lemma OccursShift(s: string, pat: string, j: int)
    requires |s| > 0 && j >= 1
    ensures OccursAt(s, pat, j) <==> OccursAt(s[1..], pat, j - 1)
  {
    if j + |pat| <= |s| {
      assert s[j..j + |pat|] == s[1..][j - 1..j - 1 + |pat|];
    }
  }

  /** The position of the first occurrence of `pat` in `s` (`s.indexOf(pat)`). */
  function FirstOccurrence(s: string, pat: string): (i: nat)
    requires Contains(s, pat)
    ensures OccursAt(s, pat, i)
    ensures forall j :: 0 <= j < i ==> !OccursAt(s, pat, j)
    decreases |s|
  {
    if s[..|pat|] == pat then 0
    else
      var t := s[1..];
      var k := FirstOccurrence(t, pat);
      OccursShift(s, pat, k + 1);
      forall j | 1 <= j <= k
        ensures !OccursAt(s, pat, j)
      {
        OccursShift(s, pat, j);
      }
      k + 1
  }

  /**
   * When the pattern occurs, `RemoveFirst` cuts out exactly its first
   * occurrence: the text before it and the text after it, joined.
   */
  lemma {:induction false} RemoveFirstCutsFirstOccurrence(s: string, pat: string)
    requires pat != [] && Contains(s, pat)
    ensures var i := FirstOccurrence(s, pat); RemoveFirst(s, pat) == s[..i] + s[i + |pat|..]
    decreases |s|
  {
    if s[..|pat|] != pat {
      var t := s[1..];
      RemoveFirstCutsFirstOccurrence(t, pat);
      var k := FirstOccurrence(t, pat);
      assert FirstOccurrence(s, pat) == k + 1;
      assert [s[0]] + t[..k] == s[..k + 1];
      assert t[k + |pat|..] == s[k + 1 + |pat|..];
    }
  }
}

=== FILE: timeline_view.dfy ===
/**
 * The dashboard's wedding-day timeline: each event as a card with a round
 * time bubble, tinted by the event's category.
 */
module TimelineView {
  import opened Text

  datatype Category = Ceremony | Reception | Preparation | Other

  datatype Event = Event(id: int, time: string, title: string, description: string, location: string, category: Category)

  /**
   * `time.split(" ")[0]`: the text before the first space, or the whole
   * time when it has no space.
   */
  function BubbleLabel(time: string): (r: string)
    ensures StartsWith(time, r)
    ensures ' ' !in r
    ensures |r| < |time| ==> time[|r|] == ' '
    ensures ' ' !in time ==> r == time
  {
    if time == [] || time[0] == ' ' then []
    else
      var rest := BubbleLabel(time[1..]);
      assert time == [time[0]] + time[1..];
      [time[0]] + rest
  }

  /** Any prefix free of spaces and followed by a space or the end is the bubble label. */
  lemma {:induction false} BubbleLabelIsFirstWord(time: string, word: string)
    requires StartsWith(time, word) && ' ' !in word
    requires |word| < |time| ==> time[|word|] == ' '
    ensures BubbleLabel(time) == word
    decreases |time|
  {
    if word != [] {
      assert word[0] == time[0];
      assert time[0] != ' ';
      BubbleLabelIsFirstWord(time[1..], word[1..]);
    }
  }

  lemma MorningBubble()
    ensures BubbleLabel("08:00 AM") == "08:00"
  {
    BubbleLabelIsFirstWord("08:00 AM", "08:00");
  }

  /** Tailwind classes for a card tinted `hue`. */
  function Tint(hue: string): (r: string)
    ensures |r| > 7 + |hue| && r[..7] == "border-" && r[7..7 + |hue|] == hue
  {
    var r := "border-" + hue + "-500/50 bg-" + hue + "-500/10";
    assert r[7..7 + |hue|] == hue;
    r
  }

  function Hue(c: Category): string {
    match c
    case Ceremony => "blue"
    case Reception => "purple"
    case Preparation => "amber"
    case Other => "gray"
  }

  /** `getCategoryColor`: blue, purple, amber or gray card classes. */
  function CategoryColor(c: Category): string {
    Tint(Hue(c))
  }

  /** Every category has its own colour. */
  lemma CategoryColorsDistinct(a: Category, b: Category)
    ensures CategoryColor(a) == CategoryColor(b) <==> a == b
  {
    var ca, cb := CategoryColor(a), CategoryColor(b);
    assert ca[7] == Hue(a)[0] && cb[7] == Hue(b)[0];
  }

  /** What one rendered event shows. */
  datatype Card = Card(key: int, bubble: string, colour: string, title: string, description: string, time: string, location: string)

  /**
   * `events.map(...)`: one card per event, in the events' order, each with
   * the short bubble label and the full time in its details line.
   */
  function Render(events: seq<Event>): (r: seq<Card>)
    ensures |r| == |events|
    ensures forall i :: 0 <= i < |events| ==>
              && r[i].key == events[i].id && r[i].title == events[i].title
              && r[i].description == events[i].description && r[i].location == events[i].location
              && r[i].time == events[i].time && r[i].colour == CategoryColor(events[i].category)
              && r[i].bubble == BubbleLabel(events[i].time)
  {
    if events == [] then []
    else
      var e := events[0];
      [Card(e.id, BubbleLabel(e.time), CategoryColor(e.category), e.title, e.description, e.time, e.location)]
        + Render(events[1..])
  }

  /** Rendering a longer list renders the same cards, then the new ones. */
  lemma {:induction false} RenderAppend(xs: seq<Event>, ys: seq<Event>)
    ensures Render(xs + ys) == Render(xs) + Render(ys)
    decreases |xs|
  {
    if xs == [] {
      assert xs + ys == ys;
    } else {
      assert (xs + ys)[1..] == xs[1..] + ys;
      RenderAppend(xs[1..], ys);
    }
  }
}

=== FILE: upload.dfy ===
/**
 * The upload middleware in front of the photo and honeymoon routes: the
 * image-only file filter, the 5 MiB size limit and the generated stored
 * filename, and the reference the routes store for an accepted file.
 * Writing the bytes to disk and creating the upload directory are not
 * modelled; the random identifier is a parameter.
 */
module Upload {
  import opened Wrappers
  import opened Text

  /** `limits.fileSize`: 5 MiB. */
  const MaxFileSize: nat := 5 * 1024 * 1024

  /** Prefix under which stored files are served and referenced. */
  const UploadsPrefix: string := "/uploads/"

  /**
   * The `image` part of a multipart request as multer reports it in
   * `req.file`: the base name the client gave (multer has already dropped
   * any directory components, and a part with an empty name never gets
   * this far), its declared MIME type and its size in bytes.
   */
  datatype IncomingFile = IncomingFile(originalName: string, mimeType: string, size: nat)

  datatype Rejection = NotAnImage | TooLarge

  /**
   * The message of the error the middleware raises for a rejection: the
   * file filter's own message, or multer's message for a part over the
   * size limit.  The two rejections carry different messages.
   */
  function RejectionMessage(e: Rejection): (m: string)
    ensures m != []
    ensures m == "File too large" <==> e == TooLarge
  {
    match e
    case NotAnImage => "Only image files are allowed!"
    case TooLarge => "File too large"
  }

  /** The declared MIME type is `image/` followed by a subtype. */
  predicate IsImage(f: IncomingFile)
    ensures IsImage(f) <==> |f.mimeType| >= 6 && f.mimeType == "image/" + f.mimeType[6..]
  {
    assert StartsWith(f.mimeType, "image/") ==> f.mimeType == f.mimeType[..6] + f.mimeType[6..];
    StartsWith(f.mimeType, "image/")
  }

  /**
   * The file filter runs first, when the part's headers arrive; the size
   * limit applies while the bytes stream in.  An accepted file is stored
   * under `<uuid>-<original name>`, which is returned.
   */
  function Accept(f: IncomingFile, uuid: string): (r: Result<string, Rejection>)
    ensures r.Success? <==> IsImage(f) && f.size <= MaxFileSize
    ensures r == Failure(NotAnImage) <==> !IsImage(f)
    ensures r == Failure(TooLarge) <==> IsImage(f) && f.size > MaxFileSize
    ensures r.Success? ==> StartsWith(r.value, uuid + "-") && r.value[|uuid| + 1..] == f.originalName
  {
    if !IsImage(f) then Failure(NotAnImage)
    else if f.size > MaxFileSize then Failure(TooLarge)
    else
      var name := uuid + "-" + f.originalName;
      assert name[..|uuid + "-"|] == uuid + "-";
      Success(name)
  }

  /** The reference stored in a record's image field for a stored file. */
  function StoredReference(filename: string): (ref: string)
    ensures StartsWith(ref, UploadsPrefix)
    ensures ref[|UploadsPrefix|..] == filename
  {
    var ref := UploadsPrefix + filename;
    assert ref[..|UploadsPrefix|] == UploadsPrefix;
    ref
  }

  /**
   * With a canonical 36-character uuid, the reference of an accepted file
   * is the fixed prefix, the uuid and a dash, followed by the client's
   * original file name unchanged.
   */
  lemma OriginalNameRecoverable(f: IncomingFile, uuid: string)
    requires |uuid| == 36
    requires IsImage(f) && f.size <= MaxFileSize
    ensures Accept(f, uuid).Success?
    ensures StoredReference(Accept(f, uuid).value)[46..] == f.originalName
  {
    var name := Accept(f, uuid).value;
    var ref := StoredReference(name);
    assert ref[46..] == ref[|UploadsPrefix|..][37..];
  }

  /** A text file is refused whatever its size; a 6 MiB image is too large; a 2 MiB PNG is accepted. */
  lemma ExampleUploads(uuid: string)
    ensures Accept(IncomingFile("notes.txt", "text/plain", 10), uuid) == Failure(NotAnImage)
    ensures Accept(IncomingFile("big.jpg", "image/jpeg", 6 * 1024 * 1024), uuid) == Failure(TooLarge)
    ensures Accept(IncomingFile("p.png", "image/png", 2 * 1024 * 1024), uuid) == Success(uuid + "-p.png")
  {
    assert !StartsWith("text/plain", "image/") by {
      assert "text/plain"[..6] != "image/" by { assert "text/plain"[0] == 't'; }
    }
    assert StartsWith("image/jpeg", "image/") by { assert "image/jpeg"[..6] == "image/"; }
    assert StartsWith("image/png", "image/") by { assert "image/png"[..6] == "image/"; }
    assert uuid + "-" + "p.png" == uuid + "-p.png";
  }
}

=== FILE: wrappers.dfy ===
/** Option and Result, used for absent request fields and for error replies. */
module Wrappers {

  datatype Option<+T> = None | Some(value: T)

  datatype Result<+R, +E> = Success(value: R) | Failure(error: E)
}
